=== FILE: README.md ===
# ar-tunnel collected-items ledger, in Dafny

A functional model of the ArqueoPUCP back end (`ar_tunnel`), the REST service of an augmented-reality
archaeology game. The model covers:

- **Storage.** The three MongoDB collections, `users`, `artifacts` and `users_artifacts`, are immutable
  sequences in natural order (`Store`). The unique indexes `init_db` declares are stated as invariants
  over them.
- **Requests.** Each request is a pure function from a database to a new database or an error.
- **Ledger.** The ledger maps a (user, artifact) pair to the `value` collected (`Ledger`).
  - `Put` is `UserCollectedItems.put`: it deletes, sets or increments an entry, with an upsert.
  - `ValueOf` is the abstract view. It reads the first record of a pair, which is the record a
    non-multi `update` rewrites.
- **Reads.** The two read paths of `UserCollectedItems.get` are pure functions (`Reports`):
  - the flat listing is an inner join with the catalog;
  - the typed listing groups by artifact type with sums.

  Each is proved to agree with an independent definition written directly over the ledger.
- **Handlers.** Users are created, updated, deleted and logged in (`Users`). Artifacts are listed,
  created, read with an optional projection, and deleted with a cascade (`Artifacts`).
- **Helpers.** The guards and error messages (`ErrorHandling`), `info_map_to_info` and the JSON
  encoder hook (`Misc`).
- **Catalog import.** The script that loads the artifact catalog from CSV rows (`Populate`).

### Parameters and behaviour as written

- **Injected parameters.** Fresh ObjectIds are parameters (`newId`, `ids`). So are:
  - the SHA-256 digest (`hash`);
  - `validate_email` (`validateEmail`);
  - the clock (`now`);
  - the coordinate parser (`parseFloat`).
- **Id collisions.** An id that collides is refused by the `_id` index as `DuplicateKey`.
- **Check order in `Put`.** The artifact is checked before the user.
- **User delete.** `User.delete` filters the ledger on the record's own `_id`, not on `user_id`. So the
  deleted user's entries stay in the ledger. The model keeps this (`DeleteUserKeepsLedger`).
- **Personal-info PUT.** It keeps only arguments named in the awards map, so it never writes anything
  (`PutPersonalInfo`).
- **Flat listing `_id`.** The flat listing groups on `$_id.user_id`, a path into an ObjectId. Its
  `_id` is therefore null whenever items exist, and the user id only in the empty default.
  `Reply.listedId` carries exactly that.
- **Nameless artifacts.** An artifact created through the API has no `name`. The unique `name` index
  reads the missing field as null, so the second such creation fails (`SecondPostFails`).
- **Typed listing.** The typed listing returns only `{type, total}` per group.

## Model

| member | source | states |
|---|---|---|
| Misc.InfoMapToInfo | ar_tunnel/utils/misc.py:11-12 | the defaults document has exactly the descriptor map's keys, each holding that descriptor's `value` |
| Misc.InfoIgnoresTypeAndValidator | ar_tunnel/utils/misc.py:11-12 | two descriptor maps that agree on keys and default values give the same document, so `type` and `validateFunction` never reach it |
| Misc.EncodeDefault | ar_tunnel/utils/misc.py:4-8 | the encoder hook succeeds exactly on ObjectIds, and rejects anything else with an error naming the object |
| Misc.EncodeDefaultRoundTrip | ar_tunnel/utils/misc.py:5-7 | an ObjectId is rendered as its own text, so it can be rebuilt from the output |
| ErrorHandling.EnsureValidGender | ar_tunnel/utils/error_handling.py:33-36 | passes iff the gender is "male" or "female", otherwise InvalidGender |
| ErrorHandling.EnsureExistentUser | ar_tunnel/utils/error_handling.py:39-44 | passes iff some user has that `_id`, otherwise DoesNotExist carrying the given id |
| ErrorHandling.EnsureExistentArtifact | ar_tunnel/utils/error_handling.py:48-53 | passes iff some artifact has that `_id`, otherwise DoesNotExist carrying the given id |
| ErrorHandling.EnsureValidEmail | ar_tunnel/utils/error_handling.py:56-59 | passes iff the validator accepts the address, otherwise InvalidEmail |
| ErrorHandling.EnsureValidPassword | ar_tunnel/utils/error_handling.py:62-66 | never fails, whatever the password |
| ErrorHandling.WrapsRoundTrip | ar_tunnel/utils/error_handling.py:85-92 | a not-found message starts with its prefix, ends with the fixed suffix and holds the id verbatim between them |
| ErrorHandling.MessageRoundTrip | ar_tunnel/utils/error_handling.py:69-100 | every handled error can be read back from its message: no two handled errors share a message, and a not-found message yields its id |
| ErrorHandling.NotFoundMessagesIdentifyId | ar_tunnel/utils/error_handling.py:85-92 | two user (or two artifact) not-found messages are equal only when they name the same id |
| Ledger.PairIndex | ar_tunnel/models/user.py:324-327 | the record a non-multi update rewrites is the first record of the pair, and there is none when no record matches |
| Ledger.Put | ar_tunnel/models/user.py:308-328 | a missing artifact id fails as an invalid id; then the artifact, then the user, must exist, each failing with DoesNotExist for its id; success writes only the ledger; once both exist, the only failure is an upsert whose fresh id is taken |
| Ledger.PutEffect | ar_tunnel/models/user.py:319-328 | after a put the pair holds: nothing for a set of 0; exactly `value` for any other set; old+`value` for an increment, or `value` when absent. Every other pair keeps its value |
| Ledger.PutFrame | ar_tunnel/models/user.py:319-328 | records of other pairs are neither dropped nor altered, and no record of another pair appears |
| Ledger.PutPreservesValid | ar_tunnel/__init__.py:8-9 | a put keeps the `_id` and (user_id, artifact_id) indexes of the ledger, and the other collections' indexes |
| Ledger.ValueOfIndexed | ar_tunnel/__init__.py:8-9 | under the pair index the ledger view holds `v` iff some record of the pair carries `v` |
| Ledger.ValueOfRemovePair | ar_tunnel/models/user.py:319-321 | removing a pair's records empties that pair and leaves every other pair as it was |
| Ledger.SetIsIdempotent | ar_tunnel/models/user.py:319-328 | repeating a set request leaves the database as the first one did |
| Ledger.SetThenIncrement | ar_tunnel/models/user.py:319-328 | a set to v1 followed by an increment of v2 leaves v1+v2, even when v1 is 0 |
| Ledger.IncrementsAccumulate | ar_tunnel/models/user.py:323-328 | N increment-by-one requests in sequence add exactly N and leave the entry present |
| Reports.GetCollectedItems | ar_tunnel/models/user.py:292-305 | an unknown user fails with DoesNotExist; a known user always gets a reply; the flat reply has a null `_id` iff it lists items, and otherwise carries the user id; the typed reply belongs to the user |
| Reports.LookupIndexed | ar_tunnel/models/user.py:333-341 | under the `_id` index, `$lookup` plus `$unwind` find the artifact when it exists and drop the record when it does not |
| Reports.JoinedItemsAreOwned | ar_tunnel/models/user.py:330-354 | the flat pipeline lists exactly the user's records whose artifact exists, as the inner join `OwnedItems` defines them |
| Reports.OwnedItemsMembership | ar_tunnel/models/user.py:330-354 | an item is listed iff some record of the user for an existing artifact carries it |
| Reports.FlatListingIsLedgerView | ar_tunnel/models/user.py:292-305 | for a known user the flat listing holds `{artifact, v}` iff the ledger holds `v` for the pair and the artifact exists, each artifact at most once |
| Reports.SetThenListShowsValue | ar_tunnel/models/user.py:319-354 | after a set, the listing shows exactly the set value for that artifact, or nothing for it when the value is 0 |
| Reports.TotalForAddToGroup | ar_tunnel/models/user.py:370-377 | grouping one more row adds its value to its own type's total only, starting the group when the type is new |
| Reports.GroupFromRepresents | ar_tunnel/models/user.py:369-392 | folding rows into the groups gives one group per type present, holding that type's sum |
| Reports.GroupByKindCorrect | ar_tunnel/models/user.py:369-392 | the grouping has each type of the rows once, with the sum of its values, and no other type |
| Reports.JoinedKindTotals | ar_tunnel/models/user.py:358-368 | the per-type sums of the joined rows equal the per-type sums over the user's records of existing artifacts |
| Reports.TypeTotalsMatchLedger | ar_tunnel/models/user.py:357-394 | the typed reply has one `{type, total}` per type the user has a record of, each type once, total = the sum of those records; other types are absent |
| Reports.BottleTotalsExample | ar_tunnel/models/user.py:357-394 | records of 3 and 2 on two "botella" artifacts give the single total `{botella, 5}` |
| Users.NewUser | ar_tunnel/models/user.py:152-165 | a new user has the eight personal-info fields: the defaults (active, level 1, null isTutorialDone), the creation time, the given email, gender and nickname, and the password digest. Its awards are the three counters at 0, and it has no collected items |
| Users.DefaultDocuments | ar_tunnel/models/user.py:19-75 | the personal-info defaults are `active` true, `level` 1 and null for the other five fields; the awards defaults are the three counters at 0 |
| Users.PostUser | ar_tunnel/models/user.py:143-167 | email, then password, then gender are checked in that order; after them the insert fails iff the id, e-mail or nickname is taken. Success appends the new user under the returned id and touches nothing else |
| Users.PostUserPreservesValid | ar_tunnel/__init__.py:6-7 | a created user keeps the `_id`, e-mail and nickname indexes |
| Users.PutPersonalInfo | ar_tunnel/models/user.py:185-201 | the database is unchanged, whatever the arguments |
| Users.ApplyAwards | ar_tunnel/models/user.py:253-255 | `$set` stores each supplied number and `$inc` adds it (a missing field starts at it); other fields are unchanged; `$inc` fails iff a supplied field holds a non-number |
| Users.PutAwards | ar_tunnel/models/user.py:241-255 | a missing user is a no-op; otherwise only that user's awards change, as `ApplyAwards` says, and the request fails iff an increment meets a non-number |
| Users.PutAwardsPreservesValid | ar_tunnel/__init__.py:6-7 | an awards update keeps the user indexes |
| Users.DeleteUser | ar_tunnel/models/user.py:399-402 | artifacts are untouched; users other than the id survive; exactly the ledger records whose own `_id` is not the id remain |
| Users.DeleteUserRemovesUser | ar_tunnel/models/user.py:401 | under the indexes the user is gone and the indexes still hold |
| Users.DeleteUserKeepsLedger | ar_tunnel/models/user.py:402 | when no ledger record shares the user's ObjectId, the whole ledger, the user's own entries included, survives the delete |
| Users.DeleteUserThenGetFails | ar_tunnel/models/user.py:399-402 | after the delete, reading the user's collected items fails with DoesNotExist |
| Users.Login | ar_tunnel/models/user.py:428-445 | "Invalid" iff no user matches the login as nickname or as e-mail with the password digest; otherwise a matching user's id, and the first nickname match wins |
| Users.LoginPrefersNickname | ar_tunnel/models/user.py:428-439 | under the nickname index, the user whose nickname and password match is logged in even if the text is another user's e-mail |
| Users.PostThenLogin | ar_tunnel/models/user.py:143-167 | a user just created can log in with the nickname and password they registered with, and the login answers the new user's id |
| Artifacts.ReplyRoundTrip | ar_tunnel/models/artifact.py:94-98 | an artifact's reply document carries all of it: reading it back gives the artifact |
| Artifacts.ListArtifacts | ar_tunnel/models/artifact.py:53-63 | one reply per artifact, in order, each reading back as that artifact |
| Artifacts.PostArtifact | ar_tunnel/models/artifact.py:42-73 | `type` is required and must be one of the four kinds, then latitude and longitude are required; after that the insert fails iff the id is taken or a nameless artifact exists; success appends the artifact with the given fields, a null path when none is given, and no name, and returns its id |
| Artifacts.PostArtifactPreservesValid | ar_tunnel/__init__.py:10 | a created artifact keeps the `_id` and `name` indexes |
| Artifacts.SecondPostFails | ar_tunnel/models/artifact.py:65-73 | after one creation through the API, any second creation fails |
| Artifacts.GetArtifact | ar_tunnel/models/artifact.py:87-98 | a missing artifact has no document; otherwise the reply has the id as text and fields of the stored artifact; with an empty projection it reads back as the stored artifact, and with a non-empty one it has exactly `_id` and the requested fields the artifact has |
| Artifacts.DeleteArtifact | ar_tunnel/models/artifact.py:100-106 | users are untouched, artifacts other than the id survive, and exactly the ledger records of other artifacts remain |
| Artifacts.ValueOfRemoveArtifact | ar_tunnel/models/artifact.py:106 | the cascade empties every pair of the artifact and leaves every other pair as it was |
| Artifacts.DeleteArtifactPreservesValid | ar_tunnel/models/artifact.py:105 | under the indexes the artifact is gone and the indexes still hold |
| Artifacts.DeleteArtifactThenList | ar_tunnel/models/artifact.py:100-106 | after the delete no user's listing shows the artifact, and every other listed entry stays |
| Artifacts.DeleteArtifactKeepsOthers | ar_tunnel/models/artifact.py:105 | an artifact with another id is in the catalog after the delete iff it was before |
| Populate.ParseRow | scripts/populate_artifacts.py:31-41 | a row is readable iff it has four cells and both coordinates parse, and then it is (type, name, latitude, longitude) from cells 0 to 3 |
| Populate.NameTypeIndex | scripts/populate_artifacts.py:52 | the record `update_one` rewrites is the first artifact matching both name and type |
| Populate.ImportRowEffect | scripts/populate_artifacts.py:42-53 | a row keeps the `_id` and `name` indexes, loses no name or id, adds no id but its own, and leaves its name in the catalog when its id was free |
| Populate.ImportNewName | scripts/populate_artifacts.py:36-44 | a row whose name and ObjectId are both new is appended as `{type, name, latitude, longitude}` with no `path`, and nothing else changes |
| Populate.ImportTakenName | scripts/populate_artifacts.py:42-47 | without `--update`, a row whose name is already in the catalog leaves the catalog unchanged |
| Populate.ImportRowKeepsNames | scripts/populate_artifacts.py:45-53 | a refused insert, with or without update, changes no artifact's id or name |
| Populate.UpdateNeedsSameType | scripts/populate_artifacts.py:47-52 | with `--update`, a row whose name belongs to an artifact of another type changes nothing |
| Populate.UpdateSetsCoordinates | scripts/populate_artifacts.py:47-52 | with `--update`, a row matching an artifact's name and type sets that artifact's coordinates and keeps everything else |
| Populate.RunKeepsIndexes | scripts/populate_artifacts.py:28-53 | a run, finished or crashed, keeps the catalog's indexes and loses no name or id |
| Populate.ImportedNamesPresent | scripts/populate_artifacts.py:28-53 | with fresh, distinct ObjectIds, a finished run leaves every data row's name in the catalog |
| Populate.RowNameFinal | scripts/populate_artifacts.py:28-53 | with fresh ObjectIds, a finished run leaves the name of any one data row in the catalog |
| Populate.RowNameSurvives | scripts/populate_artifacts.py:42-53 | a row imported under a new id keeps its name in the catalog through the rest of the run |
| Populate.ImportRowFresh | scripts/populate_artifacts.py:42-53 | a row inserts under its own id at most, so the indexes hold and the later rows' ids stay new |
| Populate.CrashIsUnreadableRow | scripts/populate_artifacts.py:28-34 | a crash happens at the first data row that lacks a cell or a parsable coordinate |
| Populate.CrashRow | scripts/populate_artifacts.py:28-34 | the row a run crashes at is a data row at or after the start that lacks a cell or a parsable coordinate |
| Populate.ReadBeforeCrash | scripts/populate_artifacts.py:28-34 | every data row before the crash row was read |
| Populate.HeaderIgnored | scripts/populate_artifacts.py:28-30 | whatever the first row holds, the run is the same |
| Populate.RunReadsSuffix | scripts/populate_artifacts.py:28-30 | a run that starts past the header gives the same result for two tables that differ only in their first row |
| Populate.NoUpdateKeepsExisting | scripts/populate_artifacts.py:42-46 | without `--update`, no artifact already in the catalog is modified |
| Populate.NoUpdateOnlyAppends | scripts/populate_artifacts.py:28-47 | without `--update`, a run, finished or crashed, only appends: the starting catalog is a prefix of the final one |

## Left out

- Request routing and argument parsing are not modelled. The handlers take already-parsed arguments.
  - A `type=float` or `type=int` conversion failure is not modelled.
  - A missing `nickname`, `email`, `password` or `gender` on user creation is not modelled. The handler
    reads raw query arguments, so each behaves differently: a missing nickname is stored as null; a
    missing e-mail is handed to `validate_email`; a missing gender fails as InvalidGender; a missing
    password crashes when it is encoded for hashing.
- MongoDB itself is not modelled: the aggregation engine, cursors and the exact projection-path rules.
  - ObjectId syntax is not checked. Ids are opaque text, so a malformed id's `InvalidId` error is only
    modelled for a missing `artifact_id`.
  - Ids are compared as text, not after `ObjectId(...)` parses them. Hex parsing ignores case, so in
    the service "5F3A…" and "5f3a…" name the same document, while in the model they are different ids.
    The model assumes every id arrives in the lowercase form `str(ObjectId)` produces.
- Errors some MongoDB versions raise for an empty `$set` or `$inc` are not modelled. An update with no
  fields is treated as changing nothing.
- Hashing, `validate_email`, the clock and coordinate parsing are function parameters, not
  implementations.
- The order of the typed listing's groups is not fixed by MongoDB. The model uses first-appearance order
  and states its properties order-free.
- The order of the flat listing's items is not fixed either: the pipeline has no `$sort`, and the
  `$match` may read through the (user_id, artifact_id) index. The model lists items in ledger order;
  `Reports.FlatListingIsLedgerView` states the listing order-free.
- Machine integer widths are not modelled (Python and BSON 64-bit integers). The model uses unbounded
  integers, and coordinates are `real`.
- The user list (`Users.get`) is not modelled. It is a plain projection of every user's nickname and
  e-mail, outside the ledger, artifact and import operations this model covers.
- The personal-info GET and the awards GET are not modelled. Each adds a sub-path under a projected
  parent, so its output depends on MongoDB's projection-collision rules.
- `DEFAULT_RECOLECTED_ITEMS` is not modelled. `Users.post` computes it but stores `{}` as the new user's
  `CollectedItems`, which `NewUser` states.
- The import script connects to the `testdb` database, not the service's. The model assumes that
  database carries the unique indexes `init_db` declares, in particular the one on `name`
  (`Populate.RunKeepsIndexes`, `Populate.ImportRowEffect`).
- Concurrency is not modelled. Each request is one atomic step.
- Output is not modelled: the console output of the import script, the handlers' own prints
  (`print(ret)` in `Artifacts.get`, `print("DELETE")` in `Artifact.delete`), and JSON encoding beyond
  `JSONEncoder.default`.
- `ar_tunnel/main.py` and `setup.py` are not part of this model. The first is a superseded prototype;
  the second is packaging.
- Reports.GetCollectedItems: the flat reply records only whether its `_id` is null or the user id.
  Item values and type totals are stated by the lemmas listed with it rather than in its own contract.

=== FILE: artifacts.dfy ===
/** The artifact resources of `ar_tunnel/models/artifact.py`: list, create, read with an optional
    projection, and delete with its cascade over the ledger. */
module Artifacts {
  import opened Wrappers
  import opened Bson
  import opened Seqs
  import opened Store
  import opened ErrorHandling
  import opened Ledger
  import opened Reports

  /** The accepted values of an artifact's `type`. */
  const ARTIFACT_TYPES: seq<string> := ["botella", "figurina", "olla", "jarron"]

  /** The fields a `fields` projection may name. */
  const ARTIFACT_FIELDS: seq<string> := ["type", "path", "latitude", "longitude"]

  /** The stored document of an artifact. */
  function ArtifactDoc(a: Artifact): Doc
  {
    var base := map["_id" := ObjectId(a.id), "type" := Str(a.kind),
                    "latitude" := Float(a.latitude), "longitude" := Float(a.longitude)];
    var named := if a.name.Some? then base["name" := Str(a.name.value)] else base;
    match a.path
    case Absent => named
    case NullPath => named["path" := Null]
    case Given(p) => named["path" := Str(p)]
  }

  /** The document as the API returns it: the ObjectId written as text. */
  function Reply(d: Doc, id: Id): Doc {
    d["_id" := Str(id)]
  }

  /** Reads an artifact back from a reply; `None` when a field is missing or of the wrong kind. */
  function ArtifactOfReply(d: Doc): Option<Artifact>
  {
    if !("_id" in d && d["_id"].Str? && "type" in d && d["type"].Str?
         && "latitude" in d && d["latitude"].Float? && "longitude" in d && d["longitude"].Float?)
    then None
    else if "name" in d && !d["name"].Str? then None
    else if "path" in d && !(d["path"].Null? || d["path"].Str?) then None
    else
      var name := if "name" in d then Some(d["name"].s) else None;
      var path := if "path" !in d then Absent else if d["path"].Null? then NullPath else Given(d["path"].s);
      Some(Artifact(d["_id"].s, d["type"].s, name, path, d["latitude"].x, d["longitude"].x))
  }

  /** The reply of an artifact carries all of it: reading it back gives the artifact. */
  lemma ReplyRoundTrip(a: Artifact)
    ensures ArtifactOfReply(Reply(ArtifactDoc(a), a.id)) == Some(a)
  {
    var d := Reply(ArtifactDoc(a), a.id);
    assert "_id" in d && d["_id"] == Str(a.id);
    assert "type" in d && d["type"] == Str(a.kind);
    assert "latitude" in d && d["latitude"] == Float(a.latitude);
    assert "longitude" in d && d["longitude"] == Float(a.longitude);
    assert "name" in d <==> a.name.Some?;
    assert a.name.Some? ==> d["name"] == Str(a.name.value);
    assert "path" in d <==> !a.path.Absent?;
    assert a.path.NullPath? ==> d["path"] == Null;
    assert a.path.Given? ==> d["path"] == Str(a.path.path);
  }

  // ---------------------------------------------------------------------------------------------
  // Artifacts.get and Artifacts.post

  /** `Artifacts.get`: every artifact in natural order, ids as text. */
  function ListArtifacts(artifacts: seq<Artifact>): (r: seq<Doc>)
    ensures |r| == |artifacts|
    ensures forall i :: 0 <= i < |r| ==> ArtifactOfReply(r[i]) == Some(artifacts[i])
  {
    if |artifacts| == 0 then []
    else
      ReplyRoundTrip(artifacts[0]);
      [Reply(ArtifactDoc(artifacts[0]), artifacts[0].id)] + ListArtifacts(artifacts[1..])
  }

  /** `Artifacts.post`: the parser checks `type` (required, one of the choices), then `latitude`
      and `longitude` (required); the parsed fields, `path` included even when null, are inserted
      under a fresh ObjectId. The document carries no `name`, which the unique `name` index reads
      as null. */
  function PostArtifact(db: Db, kind: Option<string>, path: Option<string>,
                        latitude: Option<real>, longitude: Option<real>, newId: Id)
    : (r: Result<(Db, Id), Error>)
    ensures kind.None? ==> r == Failure(MissingArgument("type"))
    ensures kind.Some? && kind.value !in ARTIFACT_TYPES ==> r == Failure(InvalidChoice("type", kind.value))
    ensures kind.Some? && kind.value in ARTIFACT_TYPES && latitude.None? ==> r == Failure(MissingArgument("latitude"))
    ensures kind.Some? && kind.value in ARTIFACT_TYPES && latitude.Some? && longitude.None? ==>
              r == Failure(MissingArgument("longitude"))
    ensures kind.Some? && kind.value in ARTIFACT_TYPES && latitude.Some? && longitude.Some? ==>
              (r.Failure? <==> HasArtifact(db.artifacts, newId) || !KeyFree(db.artifacts, NameKey, None))
              && (r.Failure? ==> r.error == DuplicateKey)
    ensures r.Success? ==>
              && r.value.1 == newId
              && r.value.0.users == db.users && r.value.0.usersArtifacts == db.usersArtifacts
              && |r.value.0.artifacts| == |db.artifacts| + 1
              && r.value.0.artifacts[..|db.artifacts|] == db.artifacts
              && var a := r.value.0.artifacts[|db.artifacts|];
                 && a.id == newId && a.kind == kind.value && a.kind in ARTIFACT_TYPES && a.name.None?
                 && a.latitude == latitude.value && a.longitude == longitude.value
                 && (path.None? ==> a.path == NullPath)
                 && (path.Some? ==> a.path == Given(path.value))
  {
    if kind.None? then Failure(MissingArgument("type"))
    else if kind.value !in ARTIFACT_TYPES then Failure(InvalidChoice("type", kind.value))
    else if latitude.None? then Failure(MissingArgument("latitude"))
    else if longitude.None? then Failure(MissingArgument("longitude"))
    else
      var a := Artifact(newId, kind.value, None, if path.Some? then Given(path.value) else NullPath,
                        latitude.value, longitude.value);
      if HasArtifact(db.artifacts, newId) || !KeyFree(db.artifacts, NameKey, None) then Failure(DuplicateKey)
      else
        assert (db.artifacts + [a])[..|db.artifacts|] == db.artifacts;
        Success((db.(artifacts := db.artifacts + [a]), newId))
  }

  /** A created artifact keeps every unique index satisfied. */
  lemma PostArtifactPreservesValid(db: Db, kind: Option<string>, path: Option<string>,
                                   latitude: Option<real>, longitude: Option<real>, newId: Id)
    requires Valid(db)
    requires PostArtifact(db, kind, path, latitude, longitude, newId).Success?
    ensures Valid(PostArtifact(db, kind, path, latitude, longitude, newId).value.0)
  {
    var a := PostArtifact(db, kind, path, latitude, longitude, newId).value.0.artifacts[|db.artifacts|];
    assert PostArtifact(db, kind, path, latitude, longitude, newId).value.0.artifacts == db.artifacts + [a];
    AppendUnique(db.artifacts, a, ArtifactId);
    AppendUnique(db.artifacts, a, NameKey);
  }

  /** Since no created artifact has a name, the second creation through the API collides with the
      first on the `name` index, whatever it asks for. */
  lemma SecondPostFails(db: Db, kind: Option<string>, path: Option<string>, latitude: Option<real>,
                        longitude: Option<real>, newId: Id,
                        kind2: Option<string>, path2: Option<string>, latitude2: Option<real>,
                        longitude2: Option<real>, newId2: Id)
    requires PostArtifact(db, kind, path, latitude, longitude, newId).Success?
    ensures PostArtifact(PostArtifact(db, kind, path, latitude, longitude, newId).value.0,
                         kind2, path2, latitude2, longitude2, newId2).Failure?
  {
    var db' := PostArtifact(db, kind, path, latitude, longitude, newId).value.0;
    assert NameKey(db'.artifacts[|db.artifacts|]) == None;
    assert !KeyFree(db'.artifacts, NameKey, None);
  }

  // ---------------------------------------------------------------------------------------------
  // Artifact.get

  /** The projected fields: those of `ARTIFACT_FIELDS` the request lists. */
  function Projection(fields: Option<seq<string>>): set<string>
  {
    set f | f in ARTIFACT_FIELDS && fields.Some? && f in fields.value
  }

  /** `Artifact.get`: `find_one` by id, with the projection when it is not empty (MongoDB adds
      `_id` to every projection). A missing artifact has no document to answer with. */
  function GetArtifact(db: Db, id: Id, fields: Option<seq<string>>): (r: Result<Doc, Error>)
    ensures !HasArtifact(db.artifacts, id) ==> r == Failure(NoDocument)
    ensures HasArtifact(db.artifacts, id) ==> r.Success?
    ensures r.Success? ==> "_id" in r.value && r.value["_id"] == Str(id)
    ensures r.Success? && Projection(fields) == {} ==>
              && ArtifactOfReply(r.value).Some?
              && ArtifactOfReply(r.value).value in db.artifacts
              && ArtifactOfReply(r.value).value.id == id
    ensures r.Success? && Projection(fields) != {} ==>
              forall k :: k in r.value ==> k == "_id" || k in Projection(fields)
    ensures r.Success? ==>
              var doc := ArtifactDoc(db.artifacts[ArtifactIndex(db.artifacts, id).value]);
              && (forall k :: k in r.value && k != "_id" ==> k in doc && doc[k] == r.value[k])
              && (forall k :: k in Projection(fields) && k in doc ==> k in r.value)
  {
    var projection := Projection(fields);
    match ArtifactIndex(db.artifacts, id)
    case None => Failure(NoDocument)
    case Some(i) =>
      var doc := ArtifactDoc(db.artifacts[i]);
      var shown := if projection != {} then map k | k in doc && (k == "_id" || k in projection) :: doc[k] else doc;
      ReplyRoundTrip(db.artifacts[i]);
      Success(Reply(shown, id))
  }

  // ---------------------------------------------------------------------------------------------
  // Artifact.delete

  /** `remove({"artifact_id": id})`: every ledger record of the artifact goes. */
  function RemoveArtifactRecords(records: seq<Record>, id: Id): seq<Record>
  {
    Filter(records, (r: Record) => r.artifactId != id)
  }

  /** `Artifact.delete`: `delete_one` on the artifact, then the cascade over the ledger; neither
      step fails when nothing matches. */
  function DeleteArtifact(db: Db, id: Id): (r: Db)
    ensures r.users == db.users
    ensures forall a :: a in r.artifacts ==> a in db.artifacts
    ensures forall a :: a in db.artifacts && a.id != id ==> a in r.artifacts
    ensures forall rec :: rec in r.usersArtifacts <==> rec in db.usersArtifacts && rec.artifactId != id
  {
    DeleteOneSubset(db.artifacts, (a: Artifact) => a.id == id);
    Db(db.users, DeleteOne(db.artifacts, (a: Artifact) => a.id == id), RemoveArtifactRecords(db.usersArtifacts, id))
  }

  /** The cascade empties every pair of the artifact and leaves every other pair as it was. */
  lemma {:induction false} ValueOfRemoveArtifact(records: seq<Record>, id: Id, u: Id, a: Id)
    ensures ValueOf(RemoveArtifactRecords(records, id), u, a) == if a == id then None else ValueOf(records, u, a)
  {
    if |records| > 0 {
      var rest := RemoveArtifactRecords(records[1..], id);
      ValueOfRemoveArtifact(records[1..], id, u, a);
      if records[0].artifactId != id {
        assert RemoveArtifactRecords(records, id) == [records[0]] + rest;
        assert ([records[0]] + rest)[1..] == rest;
      } else {
        assert RemoveArtifactRecords(records, id) == rest;
      }
    }
  }

  /** Deleting an artifact keeps the indexes and, under the `_id` index, removes it. */
  lemma DeleteArtifactPreservesValid(db: Db, id: Id)
    requires Valid(db)
    ensures Valid(DeleteArtifact(db, id))
    ensures !HasArtifact(DeleteArtifact(db, id).artifacts, id)
  {
    var arts := db.artifacts;
    var p := (a: Artifact) => a.id == id;
    DeleteOneUnique(arts, p, ArtifactId);
    DeleteOneUnique(arts, p, NameKey);
    FilterUnique(db.usersArtifacts, (rec: Record) => rec.artifactId != id, RecordId);
    FilterUnique(db.usersArtifacts, (rec: Record) => rec.artifactId != id, PairKey);
    match IndexOf(arts, p)
    case None =>
    case Some(i) =>
      var r := arts[..i] + arts[i + 1..];
      forall j | 0 <= j < |r| ensures r[j].id != id {
        var j' := if j < i then j else j + 1;
        assert r[j] == arts[j'];
        assert ArtifactId(arts[j']) != ArtifactId(arts[i]);
      }
  }

  /** After deleting an artifact no user's listing shows it, and every other entry stays. */
  lemma DeleteArtifactThenList(db: Db, id: Id, userId: Id, artifactId: Id, v: int)
    requires Valid(db) && HasUser(db.users, userId)
    ensures GetCollectedItems(DeleteArtifact(db, id), userId, false).Success?
    ensures Item(artifactId, v) in GetCollectedItems(DeleteArtifact(db, id), userId, false).value.items <==>
            artifactId != id && Item(artifactId, v) in GetCollectedItems(db, userId, false).value.items
  {
    var db' := DeleteArtifact(db, id);
    DeleteArtifactPreservesValid(db, id);
    assert db'.users == db.users;
    FlatListingIsLedgerView(db, userId, artifactId, v);
    FlatListingIsLedgerView(db', userId, artifactId, v);
    ValueOfRemoveArtifact(db.usersArtifacts, id, userId, artifactId);
    if artifactId != id {
      DeleteArtifactKeepsOthers(db, id, artifactId);
    }
  }

  /** Deleting one artifact leaves every artifact with another id in the catalog. */
  lemma DeleteArtifactKeepsOthers(db: Db, id: Id, artifactId: Id)
    requires artifactId != id
    ensures HasArtifact(DeleteArtifact(db, id).artifacts, artifactId) <==> HasArtifact(db.artifacts, artifactId)
  {
    var db' := DeleteArtifact(db, id);
    if HasArtifact(db.artifacts, artifactId) {
      var k :| 0 <= k < |db.artifacts| && db.artifacts[k].id == artifactId;
      assert db.artifacts[k] in db'.artifacts;
      var k' :| 0 <= k' < |db'.artifacts| && db'.artifacts[k'] == db.artifacts[k];
    }
    if HasArtifact(db'.artifacts, artifactId) {
      var k :| 0 <= k < |db'.artifacts| && db'.artifacts[k].id == artifactId;
      assert db'.artifacts[k] in db.artifacts;
      var k' :| 0 <= k' < |db.artifacts| && db.artifacts[k'] == db'.artifacts[k];
    }
  }
}

=== FILE: bson.dfy ===
/** The slice of the MongoDB document model that the application relies on. */
module Bson {

  /** The text form of an ObjectId: what routes receive and what responses carry. */
  type Id = string

  /** A field value of a stored document. */
  datatype Value =
    | Null
    | Bool(b: bool)
    | Int(i: int)
    | Float(x: real)
    | Str(s: string)
    | Date(t: int)
    | ObjectId(oid: Id)

  /** An embedded document such as `PersonalInfo` or `Awards`. */
  type Doc = map<string, Value>

  /** What an equality query or a unique index sees at field `k`: a missing field reads as null. */
  function Field(d: Doc, k: string): Value {
    if k in d then d[k] else Null
  }
}

=== FILE: error_handling.dfy ===
/** The exceptions, guards and message handlers of `ar_tunnel/utils/error_handling.py`. */
module ErrorHandling {
  import opened Wrappers
  import opened Bson
  import opened Seqs
  import opened Store

  /** Every way a request of the model can fail. */
  datatype Error =
    | UserDoesNotExist(userId: Id)
    | ArtifactDoesNotExist(artifactId: Id)
    | InvalidGender
    | InvalidEmail
    | InvalidPassword
    | DuplicateKey
      // argument parsing rejected a required argument that was not supplied
    | MissingArgument(argument: string)
      // argument parsing rejected a value outside the declared choices
    | InvalidChoice(argument: string, given: string)
      // the text handed to `ObjectId(...)` is not an ObjectId
    | InvalidId(text: string)
      // MongoDB refused `$inc` on a field that does not hold a number
    | NonNumericIncrement
      // `find_one` found nothing and the handler subscripted the `None` it returned
    | NoDocument

  /** `ensure_valid_gender`. */
  function EnsureValidGender(gender: string): (r: Result<(), Error>)
    ensures r.Success? <==> gender == "male" || gender == "female"
    ensures r.Failure? ==> r.error == InvalidGender
  {
    if gender in ["male", "female"] then Success(()) else Failure(InvalidGender)
  }

  /** `ensure_existent_user`: counts the users whose `_id` is `userId`. */
  function EnsureExistentUser(users: seq<User>, userId: Id): (r: Result<(), Error>)
    ensures r.Success? <==> HasUser(users, userId)
    ensures r.Failure? ==> r.error == UserDoesNotExist(userId)
  {
    var found := Filter(users, (u: User) => u.id == userId);
    if |found| > 0 then
      assert found[0] in users && found[0].id == userId;
      Success(())
    else Failure(UserDoesNotExist(userId))
  }

  /** `ensure_existent_artifact`: counts the artifacts whose `_id` is `artifactId`. */
  function EnsureExistentArtifact(artifacts: seq<Artifact>, artifactId: Id): (r: Result<(), Error>)
    ensures r.Success? <==> HasArtifact(artifacts, artifactId)
    ensures r.Failure? ==> r.error == ArtifactDoesNotExist(artifactId)
  {
    var found := Filter(artifacts, (a: Artifact) => a.id == artifactId);
    if |found| > 0 then
      assert found[0] in artifacts && found[0].id == artifactId;
      Success(())
    else Failure(ArtifactDoesNotExist(artifactId))
  }

  /** `ensure_valid_email`; the address check itself belongs to a foreign library and is a parameter. */
  function EnsureValidEmail(email: string, validateEmail: string -> bool): (r: Result<(), Error>)
    ensures r.Success? <==> validateEmail(email)
    ensures r.Failure? ==> r.error == InvalidEmail
  {
    if validateEmail(email) then Success(()) else Failure(InvalidEmail)
  }

  /** `ensure_valid_password`: the check is not implemented and never raises. */
  function EnsureValidPassword(password: string): (r: Result<(), Error>)
    ensures r.Success?
  {
    Success(())
  }

  const USER_PREFIX: string := "User with id '"
  const ARTIFACT_PREFIX: string := "Artifact with id '"
  const NOT_EXIST_SUFFIX: string := "' does not exist."
  const GENDER_MESSAGE: string := "Gender should be 'male' or 'female'."
  const EMAIL_MESSAGE: string := "E-mail format is invalid."
  const PASSWORD_MESSAGE: string := "Password is not a sha-256 encrypted string."
  const DUPLICATE_MESSAGE: string := "Duplicate key error"

  /** The `message` the registered error handlers answer with; `None` for an error no handler
      is registered for. Of those, `MissingArgument` and `InvalidChoice` are argument-parsing
      aborts the framework answers with 400 Bad Request; `InvalidId` and `NonNumericIncrement`
      are uncaught exceptions it answers with 500 Internal Server Error. */
  function Message(e: Error): Option<string>
  {
    match e
    case UserDoesNotExist(id) => Some(USER_PREFIX + id + NOT_EXIST_SUFFIX)
    case ArtifactDoesNotExist(id) => Some(ARTIFACT_PREFIX + id + NOT_EXIST_SUFFIX)
    case InvalidGender => Some(GENDER_MESSAGE)
    case InvalidEmail => Some(EMAIL_MESSAGE)
    case InvalidPassword => Some(PASSWORD_MESSAGE)
    case DuplicateKey => Some(DUPLICATE_MESSAGE)
    case _ => None
  }

  /** `m` is `prefix`, then some text, then `NOT_EXIST_SUFFIX`. */
  predicate Wraps(m: string, prefix: string) {
    && |m| >= |prefix| + |NOT_EXIST_SUFFIX|
    && m[..|prefix|] == prefix
    && m[|m| - |NOT_EXIST_SUFFIX|..] == NOT_EXIST_SUFFIX
  }

  /** Reads a handler message back into the error it reports. */
  function ErrorOfMessage(m: string): Option<Error>
  {
    if m == GENDER_MESSAGE then Some(InvalidGender)
    else if m == EMAIL_MESSAGE then Some(InvalidEmail)
    else if m == PASSWORD_MESSAGE then Some(InvalidPassword)
    else if m == DUPLICATE_MESSAGE then Some(DuplicateKey)
    else if Wraps(m, USER_PREFIX) then
      Some(UserDoesNotExist(m[|USER_PREFIX|..|m| - |NOT_EXIST_SUFFIX|]))
    else if Wraps(m, ARTIFACT_PREFIX) then
      Some(ArtifactDoesNotExist(m[|ARTIFACT_PREFIX|..|m| - |NOT_EXIST_SUFFIX|]))
    else None
  }

  lemma {:induction false} WrapsRoundTrip(prefix: string, id: Id)
    ensures Wraps(prefix + id + NOT_EXIST_SUFFIX, prefix)
    ensures (prefix + id + NOT_EXIST_SUFFIX)[|prefix|..|prefix| + |id|] == id
  {
    var m := prefix + id + NOT_EXIST_SUFFIX;
    assert m[..|prefix|] == prefix;
    assert m[|m| - |NOT_EXIST_SUFFIX|..] == NOT_EXIST_SUFFIX;
    assert m[|prefix|..|prefix| + |id|] == id;
  }

  /** Every handled error can be read back from its message: the not-found messages carry the
      offending id verbatim, and no two handled errors share a message. */
  lemma {:induction false} MessageRoundTrip(e: Error)
    requires Message(e).Some?
    ensures ErrorOfMessage(Message(e).value) == Some(e)
  {
    var m := Message(e).value;
    match e
    case UserDoesNotExist(id) =>
      WrapsRoundTrip(USER_PREFIX, id);
      assert m[0] == 'U';
      assert m != GENDER_MESSAGE && m != EMAIL_MESSAGE && m != PASSWORD_MESSAGE && m != DUPLICATE_MESSAGE;
    case ArtifactDoesNotExist(id) =>
      WrapsRoundTrip(ARTIFACT_PREFIX, id);
      assert m[0] == 'A';
      assert m != GENDER_MESSAGE && m != EMAIL_MESSAGE && m != PASSWORD_MESSAGE && m != DUPLICATE_MESSAGE;
      assert m[..|USER_PREFIX|][0] == 'A';
      assert !Wraps(m, USER_PREFIX);
    case InvalidGender =>
    case InvalidEmail =>
    case InvalidPassword =>
    case DuplicateKey =>
    case _ =>
  }

  /** Two not-found messages are equal only when they name the same id. */
  lemma NotFoundMessagesIdentifyId(a: Id, b: Id)
    ensures Message(UserDoesNotExist(a)) == Message(UserDoesNotExist(b)) ==> a == b
    ensures Message(ArtifactDoesNotExist(a)) == Message(ArtifactDoesNotExist(b)) ==> a == b
  {
    MessageRoundTrip(UserDoesNotExist(a));
    MessageRoundTrip(UserDoesNotExist(b));
    MessageRoundTrip(ArtifactDoesNotExist(a));
    MessageRoundTrip(ArtifactDoesNotExist(b));
  }
}

=== FILE: ledger.dfy ===
/** The collected-items ledger: `UserCollectedItems.put` in `ar_tunnel/models/user.py`. */
module Ledger {
  import opened Wrappers
  import opened Bson
  import opened Seqs
  import opened Store
  import opened ErrorHandling

  /** The record belongs to the (user, artifact) pair. */
  predicate Matches(r: Record, userId: Id, artifactId: Id) {
    r.userId == userId && r.artifactId == artifactId
  }

  /** The abstract ledger: the value held for a pair, read from the first record matching it. */
  function ValueOf(records: seq<Record>, userId: Id, artifactId: Id): Option<int>
  {
    if |records| == 0 then None
    else if Matches(records[0], userId, artifactId) then Some(records[0].value)
    else ValueOf(records[1..], userId, artifactId)
  }

  /** Position of the first record of the pair: the document a non-multi `update` modifies. */
  function PairIndex(records: seq<Record>, userId: Id, artifactId: Id): (r: Option<nat>)
    ensures r.Some? ==> r.value < |records| && Matches(records[r.value], userId, artifactId)
    ensures r.Some? ==> forall j :: 0 <= j < r.value ==> !Matches(records[j], userId, artifactId)
    ensures r.None? ==> forall j :: 0 <= j < |records| ==> !Matches(records[j], userId, artifactId)
  {
    IndexOf(records, (r: Record) => Matches(r, userId, artifactId))
  }

  /** `remove({"user_id": ..., "artifact_id": ...})`: every record of the pair goes. */
  function RemovePair(records: seq<Record>, userId: Id, artifactId: Id): seq<Record>
  {
    Filter(records, (r: Record) => !Matches(r, userId, artifactId))
  }

  /** `update(pair, {op: {"value": value}}, upsert=True)`: `$set` or `$inc` the first record of the
      pair, or insert a record with `value` under the fresh ObjectId `newId` when there is none. */
  function Upsert(records: seq<Record>, userId: Id, artifactId: Id, value: int, increase: bool,
                  newId: Id): Result<seq<Record>, Error>
  {
    match PairIndex(records, userId, artifactId)
    case Some(i) =>
      var updated := if increase then records[i].value + value else value;
      Success(records[i := records[i].(value := updated)])
    case None =>
      if HasRecordId(records, newId) then Failure(DuplicateKey)
      else Success(records + [Record(newId, userId, artifactId, value)])
  }

  /** `UserCollectedItems.put(id)` with parsed arguments `artifact_id`, `value` and `_increase`.
      A missing `artifact_id` reaches `ObjectId(str(None))`, which rejects the text "None". */
  function Put(db: Db, userId: Id, artifactId: Option<Id>, value: int, increase: bool, newId: Id)
    : (r: Result<Db, Error>)
    ensures artifactId.None? ==> r == Failure(InvalidId("None"))
    ensures artifactId.Some? && !HasArtifact(db.artifacts, artifactId.value) ==>
              r == Failure(ArtifactDoesNotExist(artifactId.value))
    ensures artifactId.Some? && HasArtifact(db.artifacts, artifactId.value) && !HasUser(db.users, userId) ==>
              r == Failure(UserDoesNotExist(userId))
    ensures r.Success? ==> artifactId.Some? && HasArtifact(db.artifacts, artifactId.value) && HasUser(db.users, userId)
    ensures r.Success? ==> r.value.users == db.users && r.value.artifacts == db.artifacts
    ensures artifactId.Some? && HasArtifact(db.artifacts, artifactId.value) && HasUser(db.users, userId) && r.Failure? ==>
              && r.error == DuplicateKey
              && (increase || value != 0)
              && ValueOf(db.usersArtifacts, userId, artifactId.value).None?
              && HasRecordId(db.usersArtifacts, newId)
  {
    match artifactId
    case None => Failure(InvalidId("None"))
    case Some(aid) =>
      var artifactOk :- EnsureExistentArtifact(db.artifacts, aid);
      var userOk :- EnsureExistentUser(db.users, userId);
      if !increase && value == 0 then
        Success(db.(usersArtifacts := RemovePair(db.usersArtifacts, userId, aid)))
      else
        var records :- (ValueOfNone(db.usersArtifacts, userId, aid);
                        Upsert(db.usersArtifacts, userId, aid, value, increase, newId));
        Success(db.(usersArtifacts := records))
  }

  /** What a successful put leaves for its pair, in terms of the value it held before. */
  function Expected(before: Option<int>, value: int, increase: bool): Option<int>
  {
    if !increase then (if value == 0 then None else Some(value))
    else Some(before.GetOr(0) + value)
  }

  lemma {:induction false} ValueOfNone(records: seq<Record>, userId: Id, artifactId: Id)
    ensures PairIndex(records, userId, artifactId).None? ==> ValueOf(records, userId, artifactId).None?
  {
    if |records| > 0 && PairIndex(records, userId, artifactId).None? {
      assert !Matches(records[0], userId, artifactId);
      assert PairIndex(records[1..], userId, artifactId).None? by {
        forall j | 0 <= j < |records[1..]| ensures !Matches(records[1..][j], userId, artifactId) {
          assert records[1..][j] == records[j + 1];
        }
        NoMatchIsNone(records[1..], userId, artifactId);
      }
      ValueOfNone(records[1..], userId, artifactId);
    }
  }

  lemma NoMatchIsNone(records: seq<Record>, userId: Id, artifactId: Id)
    requires forall j :: 0 <= j < |records| ==> !Matches(records[j], userId, artifactId)
    ensures PairIndex(records, userId, artifactId).None?
  {
  }

  /** The first matching record determines the value. */
  lemma {:induction false} ValueOfAt(records: seq<Record>, userId: Id, artifactId: Id, k: nat)
    requires k < |records| && Matches(records[k], userId, artifactId)
    requires forall j :: 0 <= j < k ==> !Matches(records[j], userId, artifactId)
    ensures ValueOf(records, userId, artifactId) == Some(records[k].value)
  {
    if k > 0 {
      ValueOfAt(records[1..], userId, artifactId, k - 1);
    }
  }

  /** Removing the pair's records empties it and leaves every other pair as it was. */
  lemma {:induction false} ValueOfRemovePair(records: seq<Record>, userId: Id, artifactId: Id, u: Id, a: Id)
    ensures ValueOf(RemovePair(records, userId, artifactId), u, a)
         == if (u, a) == (userId, artifactId) then None else ValueOf(records, u, a)
  {
    if |records| > 0 {
      var rest := RemovePair(records[1..], userId, artifactId);
      ValueOfRemovePair(records[1..], userId, artifactId, u, a);
      if !Matches(records[0], userId, artifactId) {
        assert RemovePair(records, userId, artifactId) == [records[0]] + rest;
        assert ([records[0]] + rest)[1..] == rest;
      } else {
        assert RemovePair(records, userId, artifactId) == rest;
      }
    }
  }

  /** Rewriting the value of the pair's first record changes that pair only. */
  lemma {:induction false} ValueOfUpdate(records: seq<Record>, i: nat, v: int, userId: Id, artifactId: Id, u: Id, a: Id)
    requires i < |records| && Matches(records[i], userId, artifactId)
    requires forall j :: 0 <= j < i ==> !Matches(records[j], userId, artifactId)
    ensures ValueOf(records[i := records[i].(value := v)], u, a)
         == if (u, a) == (userId, artifactId) then Some(v) else ValueOf(records, u, a)
  {
    var updated := records[i := records[i].(value := v)];
    if i > 0 {
      assert updated[1..] == records[1..][i - 1 := records[i].(value := v)];
      ValueOfUpdate(records[1..], i - 1, v, userId, artifactId, u, a);
    } else {
      assert updated[1..] == records[1..];
    }
  }

  /** Appending a record is seen only by a pair that had no record yet. */
  lemma {:induction false} ValueOfAppend(records: seq<Record>, x: Record, u: Id, a: Id)
    ensures ValueOf(records + [x], u, a)
         == if ValueOf(records, u, a).Some? then ValueOf(records, u, a)
            else if Matches(x, u, a) then Some(x.value) else None
  {
    if |records| > 0 {
      assert (records + [x])[1..] == records[1..] + [x];
      ValueOfAppend(records[1..], x, u, a);
    } else {
      assert ([] + [x])[1..] == [];
    }
  }

  /** The ledger effect of a put: its pair gets `Expected(...)`, every other pair keeps its value
      (set-to-zero deletes, set stores exactly `value`, increment adds to the old value or starts
      from `value`, and an increment may leave 0 behind). */
  lemma {:induction false} PutEffect(db: Db, userId: Id, artifactId: Id, value: int, increase: bool, newId: Id,
                                     u: Id, a: Id)
    requires Put(db, userId, Some(artifactId), value, increase, newId).Success?
    ensures ValueOf(Put(db, userId, Some(artifactId), value, increase, newId).value.usersArtifacts, u, a)
         == if (u, a) == (userId, artifactId)
            then Expected(ValueOf(db.usersArtifacts, userId, artifactId), value, increase)
            else ValueOf(db.usersArtifacts, u, a)
  {
    var records := db.usersArtifacts;
    if !increase && value == 0 {
      ValueOfRemovePair(records, userId, artifactId, u, a);
    } else {
      match PairIndex(records, userId, artifactId)
      case Some(i) =>
        ValueOfAt(records, userId, artifactId, i);
        var updated := if increase then records[i].value + value else value;
        ValueOfUpdate(records, i, updated, userId, artifactId, u, a);
      case None =>
        ValueOfNone(records, userId, artifactId);
        ValueOfAppend(records, Record(newId, userId, artifactId, value), u, a);
    }
  }

  /** Records of other pairs are neither changed nor dropped, and no record of another pair appears. */
  lemma {:induction false} PutFrame(db: Db, userId: Id, artifactId: Id, value: int, increase: bool, newId: Id)
    requires Put(db, userId, Some(artifactId), value, increase, newId).Success?
    ensures forall r :: r in db.usersArtifacts && !Matches(r, userId, artifactId) ==>
              r in Put(db, userId, Some(artifactId), value, increase, newId).value.usersArtifacts
    ensures forall r :: r in Put(db, userId, Some(artifactId), value, increase, newId).value.usersArtifacts ==>
              Matches(r, userId, artifactId) || r in db.usersArtifacts
  {
    var records := db.usersArtifacts;
    var after := Put(db, userId, Some(artifactId), value, increase, newId).value.usersArtifacts;
    if !increase && value == 0 {
      forall r | r in records && !Matches(r, userId, artifactId) ensures r in after {
        var k :| 0 <= k < |records| && records[k] == r;
      }
    } else {
      match PairIndex(records, userId, artifactId)
      case Some(i) =>
        forall r | r in records && !Matches(r, userId, artifactId) ensures r in after {
          var k :| 0 <= k < |records| && records[k] == r;
          assert after[k] == r;
        }
        forall r | r in after && !Matches(r, userId, artifactId) ensures r in records {
          var k :| 0 <= k < |after| && after[k] == r;
          assert records[k] == r;
        }
      case None =>
        assert after == records + [Record(newId, userId, artifactId, value)];
    }
  }

  /** A successful put keeps every unique index satisfied. */
  lemma {:induction false} PutPreservesValid(db: Db, userId: Id, artifactId: Option<Id>, value: int, increase: bool,
                                             newId: Id)
    requires Valid(db)
    requires Put(db, userId, artifactId, value, increase, newId).Success?
    ensures Valid(Put(db, userId, artifactId, value, increase, newId).value)
  {
    var aid := artifactId.value;
    var records := db.usersArtifacts;
    if !increase && value == 0 {
      FilterUnique(records, (r: Record) => !Matches(r, userId, aid), RecordId);
      FilterUnique(records, (r: Record) => !Matches(r, userId, aid), PairKey);
    } else {
      match PairIndex(records, userId, aid)
      case Some(i) =>
        var updated := if increase then records[i].value + value else value;
        UpdateUnique(records, i, records[i].(value := updated), RecordId);
        UpdateUnique(records, i, records[i].(value := updated), PairKey);
      case None =>
        var x := Record(newId, userId, aid, value);
        AppendUnique(records, x, RecordId);
        AppendUnique(records, x, PairKey);
    }
  }

  /** Under the pair index, the ledger holds `v` for a pair exactly when a record of the pair says so. */
  lemma ValueOfIndexed(records: seq<Record>, userId: Id, artifactId: Id, v: int)
    requires UniqueBy(records, PairKey)
    ensures ValueOf(records, userId, artifactId) == Some(v) <==>
            exists i :: 0 <= i < |records| && Matches(records[i], userId, artifactId) && records[i].value == v
  {
    ValueOfNone(records, userId, artifactId);
    match PairIndex(records, userId, artifactId)
    case Some(k) =>
      ValueOfAt(records, userId, artifactId, k);
      forall i | 0 <= i < |records| && Matches(records[i], userId, artifactId) ensures i == k {
        assert PairKey(records[i]) == PairKey(records[k]);
      }
    case None =>
  }

  /** Repeating a set request changes nothing the second time. */
  lemma {:induction false} SetIsIdempotent(db: Db, userId: Id, artifactId: Id, value: int, newId: Id, newId2: Id)
    requires Put(db, userId, Some(artifactId), value, false, newId).Success?
    ensures Put(Put(db, userId, Some(artifactId), value, false, newId).value, userId, Some(artifactId), value, false, newId2)
         == Put(db, userId, Some(artifactId), value, false, newId)
  {
    var db1 := Put(db, userId, Some(artifactId), value, false, newId).value;
    if value == 0 {
      FilterIdempotent(db.usersArtifacts, (r: Record) => !Matches(r, userId, artifactId));
    } else {
      var records := db1.usersArtifacts;
      PutEffect(db, userId, artifactId, value, false, newId, userId, artifactId);
      ValueOfNone(records, userId, artifactId);
      var i := PairIndex(records, userId, artifactId).value;
      ValueOfAt(records, userId, artifactId, i);
      assert records[i := records[i].(value := value)] == records;
    }
  }

  /** Setting `v1` and then incrementing by `v2` leaves `v1 + v2`, whether or not `v1` was 0. */
  lemma SetThenIncrement(db: Db, userId: Id, artifactId: Id, v1: int, v2: int, newId: Id, newId2: Id)
    requires Put(db, userId, Some(artifactId), v1, false, newId).Success?
    requires Put(Put(db, userId, Some(artifactId), v1, false, newId).value, userId, Some(artifactId), v2, true, newId2).Success?
    ensures ValueOf(Put(Put(db, userId, Some(artifactId), v1, false, newId).value, userId, Some(artifactId), v2, true, newId2)
                      .value.usersArtifacts, userId, artifactId) == Some(v1 + v2)
  {
    var db1 := Put(db, userId, Some(artifactId), v1, false, newId).value;
    PutEffect(db, userId, artifactId, v1, false, newId, userId, artifactId);
    PutEffect(db1, userId, artifactId, v2, true, newId2, userId, artifactId);
  }

  /** One increment-by-one request per element of `newIds`, applied in order. */
  function IncrementEach(db: Db, userId: Id, artifactId: Id, newIds: seq<Id>): Result<Db, Error>
    decreases |newIds|
  {
    if |newIds| == 0 then Success(db)
    else
      var next :- Put(db, userId, Some(artifactId), 1, true, newIds[0]);
      IncrementEach(next, userId, artifactId, newIds[1..])
  }

  /** N increments by one, each applied as one atomic step, add exactly N: no update is lost. */
  lemma {:induction false} IncrementsAccumulate(db: Db, userId: Id, artifactId: Id, newIds: seq<Id>)
    requires IncrementEach(db, userId, artifactId, newIds).Success?
    ensures ValueOf(IncrementEach(db, userId, artifactId, newIds).value.usersArtifacts, userId, artifactId).GetOr(0)
         == ValueOf(db.usersArtifacts, userId, artifactId).GetOr(0) + |newIds|
    ensures |newIds| > 0 ==>
              ValueOf(IncrementEach(db, userId, artifactId, newIds).value.usersArtifacts, userId, artifactId).Some?
    decreases |newIds|
  {
    if |newIds| > 0 {
      var next := Put(db, userId, Some(artifactId), 1, true, newIds[0]).value;
      PutEffect(db, userId, artifactId, 1, true, newIds[0], userId, artifactId);
      IncrementsAccumulate(next, userId, artifactId, newIds[1..]);
    }
  }
}

=== FILE: misc.dfy ===
/** Helpers of `ar_tunnel/utils/misc.py`: default-value projection and the JSON fallback encoder. */
module Misc {
  import opened Wrappers
  import opened Bson

  /** The Python type a descriptor declares for its field. */
  datatype PyType = BoolType | DateTimeType | StrType | IntType | FloatType

  /** The validators a descriptor may name. */
  datatype Validator = EmailValidator

  /** One entry of an info map: `{"type": ..., "value": ..., "validateFunction": ...}`. */
  datatype Descriptor = Descriptor(pyType: PyType, value: Value, validateFunction: Option<Validator>)

  type InfoMap = map<string, Descriptor>

  /** `info_map_to_info`: keep, for each field, only the descriptor's default value. */
  function InfoMapToInfo(m: InfoMap): (r: Doc)
    ensures r.Keys == m.Keys
    ensures forall k :: k in r ==> r[k] == m[k].value
  {
    map k | k in m :: m[k].value
  }

  /** The declared type and validator never reach the result: only keys and default values matter. */
  lemma InfoIgnoresTypeAndValidator(m1: InfoMap, m2: InfoMap)
    requires m1.Keys == m2.Keys
    requires forall k :: k in m1 ==> m1[k].value == m2[k].value
    ensures InfoMapToInfo(m1) == InfoMapToInfo(m2)
  {
  }

  /** The error the base `json.JSONEncoder.default` raises for an object it cannot encode. */
  datatype EncodeError = NotSerializable(obj: Value)

  /** `JSONEncoder.default`: an ObjectId is rendered as its text; anything else is deferred to the
      base encoder, which rejects it. */
  function EncodeDefault(obj: Value): (r: Result<string, EncodeError>)
    ensures r.Success? <==> obj.ObjectId?
    ensures r.Failure? ==> r.error == NotSerializable(obj)
  {
    match obj
    case ObjectId(text) => Success(text)
    case _ => Failure(NotSerializable(obj))
  }

  /** Rebuilding an ObjectId from the encoded text gives back the original object. */
  lemma EncodeDefaultRoundTrip(obj: Value)
    requires EncodeDefault(obj).Success?
    ensures ObjectId(EncodeDefault(obj).value) == obj
  {
  }
}

=== FILE: populate.dfy ===
/** `scripts/populate_artifacts.py`: imports a catalog of artifacts from CSV rows into the
    `artifacts` collection, optionally updating the coordinates of artifacts already there. */
module Populate {
  import opened Wrappers
  import opened Bson
  import opened Seqs
  import opened Store

  /** How a run ends: every row imported, or an exception at row `row`, after the writes of the
      earlier rows (which stay). */
  datatype Outcome = Imported(artifacts: seq<Artifact>) | Crashed(artifacts: seq<Artifact>, row: nat)

  /** A data row: type, name, latitude, longitude. */
  datatype CatalogRow = CatalogRow(kind: string, name: string, latitude: real, longitude: real)

  /** Reads a data row; `None` where the script raises (a missing cell or a coordinate `float`
      refuses). Cells after the fourth are ignored; the type is not checked against the API's
      choices. */
  function ParseRow(row: seq<string>, parseFloat: string -> Option<real>): (r: Option<CatalogRow>)
    ensures r.Some? <==> |row| >= 4 && parseFloat(row[2]).Some? && parseFloat(row[3]).Some?
    ensures r.Some? ==> r.value == CatalogRow(row[0], row[1], parseFloat(row[2]).value, parseFloat(row[3]).value)
  {
    if |row| < 4 then None
    else match (parseFloat(row[2]), parseFloat(row[3]))
      case (Some(lat), Some(lon)) => Some(CatalogRow(row[0], row[1], lat, lon))
      case _ => None
  }

  /** An artifact of that name is in the catalog. */
  predicate HasName(artifacts: seq<Artifact>, name: string) {
    exists i :: 0 <= i < |artifacts| && artifacts[i].name == Some(name)
  }

  /** The first artifact with that name and type: the document `update_one` rewrites. */
  function NameTypeIndex(artifacts: seq<Artifact>, name: string, kind: string): (r: Option<nat>)
    ensures r.Some? ==> r.value < |artifacts| && artifacts[r.value].name == Some(name) && artifacts[r.value].kind == kind
    ensures r.Some? ==> forall j :: 0 <= j < r.value ==> !(artifacts[j].name == Some(name) && artifacts[j].kind == kind)
    ensures r.None? ==> forall j :: 0 <= j < |artifacts| ==> !(artifacts[j].name == Some(name) && artifacts[j].kind == kind)
  {
    IndexOf(artifacts, (a: Artifact) => a.name == Some(name) && a.kind == kind)
  }

  /** One data row: `insert_one` under the fresh ObjectId `newId` (no `path` field); when an
      index refuses it, nothing, or with `update` a `$set` of type and coordinates on the first
      artifact matching both name and type. */
  function ImportRow(artifacts: seq<Artifact>, row: CatalogRow, update: bool, newId: Id): seq<Artifact>
  {
    if !HasArtifact(artifacts, newId) && KeyFree(artifacts, NameKey, Some(row.name)) then
      artifacts + [Artifact(newId, row.kind, Some(row.name), Absent, row.latitude, row.longitude)]
    else if !update then artifacts
    else match NameTypeIndex(artifacts, row.name, row.kind)
      case None => artifacts
      case Some(j) =>
        artifacts[j := artifacts[j].(kind := row.kind, latitude := row.latitude, longitude := row.longitude)]
  }

  /** The effect of one data row on the catalog, given the row and its index. */
  type Step = (seq<Artifact>, CatalogRow, nat) -> seq<Artifact>

  /** The loop from row `i` on, row 0 being the header: each data row is read, then applied with
      `step`; the first unreadable row ends the run. */
  function Run(artifacts: seq<Artifact>, rows: seq<seq<string>>, i: nat, parseFloat: string -> Option<real>,
               step: Step): Outcome
    decreases |rows| - i
  {
    if i >= |rows| then Imported(artifacts)
    else if i == 0 then Run(artifacts, rows, 1, parseFloat, step)
    else match ParseRow(rows[i], parseFloat)
      case None => Crashed(artifacts, i)
      case Some(row) => Run(step(artifacts, row, i), rows, i + 1, parseFloat, step)
  }

  /** The script's row step; `ids(i)` is the ObjectId the driver draws for row `i`'s insert. */
  function Importer(update: bool, ids: nat -> Id): Step {
    (artifacts: seq<Artifact>, row: CatalogRow, i: nat) => ImportRow(artifacts, row, update, ids(i))
  }

  /** The whole script over the `artifacts` collection. */
  function PopulateArtifacts(artifacts: seq<Artifact>, rows: seq<seq<string>>, update: bool,
                             parseFloat: string -> Option<real>, ids: nat -> Id): Outcome
  {
    Run(artifacts, rows, 0, parseFloat, Importer(update, ids))
  }

  // ---------------------------------------------------------------------------------------------
  // One row

  /** A row keeps the `_id` and `name` indexes satisfied, never loses a name, and leaves the
      catalog holding an artifact of the row's name when the insert's id was free. */
  lemma ImportRowEffect(artifacts: seq<Artifact>, row: CatalogRow, update: bool, newId: Id)
    requires ArtifactsIndexed(artifacts)
    ensures ArtifactsIndexed(ImportRow(artifacts, row, update, newId))
    ensures forall n :: HasName(artifacts, n) ==> HasName(ImportRow(artifacts, row, update, newId), n)
    ensures forall a :: HasArtifact(artifacts, a) ==> HasArtifact(ImportRow(artifacts, row, update, newId), a)
    ensures forall a :: HasArtifact(ImportRow(artifacts, row, update, newId), a) ==> HasArtifact(artifacts, a) || a == newId
    ensures !HasArtifact(artifacts, newId) ==> HasName(ImportRow(artifacts, row, update, newId), row.name)
  {
    var r := ImportRow(artifacts, row, update, newId);
    var x := Artifact(newId, row.kind, Some(row.name), Absent, row.latitude, row.longitude);
    if !HasArtifact(artifacts, newId) && KeyFree(artifacts, NameKey, Some(row.name)) {
      AppendUnique(artifacts, x, ArtifactId);
      AppendUnique(artifacts, x, NameKey);
      assert r[|artifacts|] == x;
      forall n | HasName(artifacts, n) ensures HasName(r, n) {
        var k :| 0 <= k < |artifacts| && artifacts[k].name == Some(n);
        assert r[k] == artifacts[k];
      }
      forall a | HasArtifact(artifacts, a) ensures HasArtifact(r, a) {
        var k :| 0 <= k < |artifacts| && artifacts[k].id == a;
        assert r[k] == artifacts[k];
      }
    } else if !HasArtifact(artifacts, newId) {
      var k :| 0 <= k < |artifacts| && NameKey(artifacts[k]) == Some(row.name);
      assert artifacts[k].name == Some(row.name);
      ImportRowKeepsNames(artifacts, row, update, newId);
    } else {
      ImportRowKeepsNames(artifacts, row, update, newId);
    }
  }

  /** A row whose name and id are both new is inserted as `{type, name, latitude, longitude}` at
      the end of the catalog, and nothing else changes. */
  lemma ImportNewName(artifacts: seq<Artifact>, row: CatalogRow, update: bool, newId: Id)
    requires !HasArtifact(artifacts, newId) && !HasName(artifacts, row.name)
    ensures ImportRow(artifacts, row, update, newId)
            == artifacts + [Artifact(newId, row.kind, Some(row.name), Absent, row.latitude, row.longitude)]
  {
  }

  /** Without `update`, a row whose name is already in the catalog changes nothing. */
  lemma ImportTakenName(artifacts: seq<Artifact>, row: CatalogRow, newId: Id)
    requires HasName(artifacts, row.name)
    ensures ImportRow(artifacts, row, false, newId) == artifacts
  {
    var k :| 0 <= k < |artifacts| && artifacts[k].name == Some(row.name);
    assert NameKey(artifacts[k]) == Some(row.name);
  }

  /** A row that is not inserted changes no id and no name, so the indexes still hold. */
  lemma ImportRowKeepsNames(artifacts: seq<Artifact>, row: CatalogRow, update: bool, newId: Id)
    requires ArtifactsIndexed(artifacts)
    requires HasArtifact(artifacts, newId) || !KeyFree(artifacts, NameKey, Some(row.name))
    ensures |ImportRow(artifacts, row, update, newId)| == |artifacts|
    ensures forall j :: 0 <= j < |artifacts| ==>
              && ImportRow(artifacts, row, update, newId)[j].id == artifacts[j].id
              && ImportRow(artifacts, row, update, newId)[j].name == artifacts[j].name
    ensures ArtifactsIndexed(ImportRow(artifacts, row, update, newId))
    ensures forall n :: HasName(artifacts, n) ==> HasName(ImportRow(artifacts, row, update, newId), n)
    ensures forall a :: HasArtifact(artifacts, a) <==> HasArtifact(ImportRow(artifacts, row, update, newId), a)
  {
    var r := ImportRow(artifacts, row, update, newId);
    if update {
      match NameTypeIndex(artifacts, row.name, row.kind)
      case None =>
      case Some(j) =>
        var y := artifacts[j].(kind := row.kind, latitude := row.latitude, longitude := row.longitude);
        UpdateUnique(artifacts, j, y, ArtifactId);
        UpdateUnique(artifacts, j, y, NameKey);
    }
    forall n | HasName(artifacts, n) ensures HasName(r, n) {
      var k :| 0 <= k < |artifacts| && artifacts[k].name == Some(n);
      assert r[k].name == Some(n);
    }
    forall a | HasArtifact(artifacts, a) ensures HasArtifact(r, a) {
      var k :| 0 <= k < |artifacts| && artifacts[k].id == a;
      assert r[k].id == a;
    }
    forall a | HasArtifact(r, a) ensures HasArtifact(artifacts, a) {
      var k :| 0 <= k < |r| && r[k].id == a;
      assert artifacts[k].id == a;
    }
  }

  /** With `update`, a row whose name is taken by an artifact of another type changes nothing:
      the `update_one` filter asks for both the name and the row's type. */
  lemma UpdateNeedsSameType(artifacts: seq<Artifact>, row: CatalogRow, newId: Id, k: nat)
    requires ArtifactsIndexed(artifacts)
    requires k < |artifacts| && artifacts[k].name == Some(row.name) && artifacts[k].kind != row.kind
    ensures ImportRow(artifacts, row, true, newId) == artifacts
  {
    assert !KeyFree(artifacts, NameKey, Some(row.name)) by {
      assert NameKey(artifacts[k]) == Some(row.name);
    }
  }

  /** With `update`, a row whose name and type are already in the catalog moves that artifact to
      the row's coordinates and keeps everything else. */
  lemma UpdateSetsCoordinates(artifacts: seq<Artifact>, row: CatalogRow, newId: Id, k: nat)
    requires ArtifactsIndexed(artifacts)
    requires k < |artifacts| && artifacts[k].name == Some(row.name) && artifacts[k].kind == row.kind
    ensures ImportRow(artifacts, row, true, newId)
         == artifacts[k := artifacts[k].(latitude := row.latitude, longitude := row.longitude)]
  {
    assert !KeyFree(artifacts, NameKey, Some(row.name)) by {
      assert NameKey(artifacts[k]) == Some(row.name);
    }
    var j := NameTypeIndex(artifacts, row.name, row.kind).value;
    assert NameKey(artifacts[j]) == NameKey(artifacts[k]);
  }

  // ---------------------------------------------------------------------------------------------
  // The whole run

  /** The run keeps the indexes satisfied, whether it ends or crashes, and never loses a name or
      an id. */
  lemma {:induction false} RunKeepsIndexes(artifacts: seq<Artifact>, rows: seq<seq<string>>, i: nat, update: bool,
                                           parseFloat: string -> Option<real>, ids: nat -> Id)
    requires ArtifactsIndexed(artifacts)
    ensures ArtifactsIndexed(Run(artifacts, rows, i, parseFloat, Importer(update, ids)).artifacts)
    ensures forall n :: HasName(artifacts, n) ==> HasName(Run(artifacts, rows, i, parseFloat, Importer(update, ids)).artifacts, n)
    ensures forall a :: HasArtifact(artifacts, a) ==> HasArtifact(Run(artifacts, rows, i, parseFloat, Importer(update, ids)).artifacts, a)
    decreases |rows| - i
  {
    if i >= |rows| {
    } else if i == 0 {
      RunKeepsIndexes(artifacts, rows, 1, update, parseFloat, ids);
    } else {
      match ParseRow(rows[i], parseFloat)
      case None =>
      case Some(row) =>
        var next := ImportRow(artifacts, row, update, ids(i));
        assert Importer(update, ids)(artifacts, row, i) == next;
        ImportRowEffect(artifacts, row, update, ids(i));
        RunKeepsIndexes(next, rows, i + 1, update, parseFloat, ids);
    }
  }

  /** The ids the run may insert are new: none is in the catalog and no two rows share one. */
  ghost predicate IdsFresh(artifacts: seq<Artifact>, rows: seq<seq<string>>, i: nat, ids: nat -> Id) {
    && (forall j :: i <= j < |rows| ==> !HasArtifact(artifacts, ids(j)))
    && (forall j, k :: i <= j < k < |rows| ==> ids(j) != ids(k))
  }

  /** When the driver's ObjectIds are new and distinct, a completed run leaves every imported row's
      name in the catalog: inserted, or already there. */
  lemma ImportedNamesPresent(artifacts: seq<Artifact>, rows: seq<seq<string>>, i: nat, update: bool,
                             parseFloat: string -> Option<real>, ids: nat -> Id)
    requires ArtifactsIndexed(artifacts)
    requires IdsFresh(artifacts, rows, i, ids)
    requires Run(artifacts, rows, i, parseFloat, Importer(update, ids)).Imported?
    ensures forall j :: 1 <= j < |rows| && i <= j ==>
              ParseRow(rows[j], parseFloat).Some?
              && HasName(Run(artifacts, rows, i, parseFloat, Importer(update, ids)).artifacts, ParseRow(rows[j], parseFloat).value.name)
  {
    forall j | 1 <= j < |rows| && i <= j
      ensures ParseRow(rows[j], parseFloat).Some?
      ensures HasName(Run(artifacts, rows, i, parseFloat, Importer(update, ids)).artifacts, ParseRow(rows[j], parseFloat).value.name)
    {
      RowNameFinal(artifacts, rows, i, j, update, parseFloat, ids);
    }
  }

  /** Row `j`'s name is in the catalog at the end of a completed run from row `i`. */
  lemma {:induction false} RowNameFinal(artifacts: seq<Artifact>, rows: seq<seq<string>>, i: nat, j: nat, update: bool,
                                        parseFloat: string -> Option<real>, ids: nat -> Id)
    requires ArtifactsIndexed(artifacts)
    requires IdsFresh(artifacts, rows, i, ids)
    requires Run(artifacts, rows, i, parseFloat, Importer(update, ids)).Imported?
    requires 1 <= j < |rows| && i <= j
    ensures ParseRow(rows[j], parseFloat).Some?
    ensures HasName(Run(artifacts, rows, i, parseFloat, Importer(update, ids)).artifacts, ParseRow(rows[j], parseFloat).value.name)
    decreases |rows| - i
  {
    if i == 0 {
      RowNameFinal(artifacts, rows, 1, j, update, parseFloat, ids);
    } else {
      var row := ParseRow(rows[i], parseFloat).value;
      var next := ImportRow(artifacts, row, update, ids(i));
      assert Importer(update, ids)(artifacts, row, i) == next;
      if j == i {
        RowNameSurvives(artifacts, rows, i, update, parseFloat, ids, row);
      } else {
        ImportRowFresh(artifacts, rows, i, update, ids, row);
        RowNameFinal(next, rows, i + 1, j, update, parseFloat, ids);
      }
    }
  }

  /** The name of row `i` is in the catalog at the end of the run when the row's id was new. */
  lemma RowNameSurvives(artifacts: seq<Artifact>, rows: seq<seq<string>>, i: nat, update: bool,
                        parseFloat: string -> Option<real>, ids: nat -> Id, row: CatalogRow)
    requires ArtifactsIndexed(artifacts) && !HasArtifact(artifacts, ids(i))
    ensures HasName(Run(ImportRow(artifacts, row, update, ids(i)), rows, i + 1, parseFloat, Importer(update, ids)).artifacts,
                    row.name)
  {
    ImportRowEffect(artifacts, row, update, ids(i));
    RunKeepsIndexes(ImportRow(artifacts, row, update, ids(i)), rows, i + 1, update, parseFloat, ids);
  }

  /** Row `i` inserts under `ids(i)` at most, so the indexes hold and the later rows' ids are
      still new afterwards. */
  lemma ImportRowFresh(artifacts: seq<Artifact>, rows: seq<seq<string>>, i: nat, update: bool, ids: nat -> Id,
                       row: CatalogRow)
    requires ArtifactsIndexed(artifacts) && IdsFresh(artifacts, rows, i, ids) && i < |rows|
    ensures ArtifactsIndexed(ImportRow(artifacts, row, update, ids(i)))
    ensures IdsFresh(ImportRow(artifacts, row, update, ids(i)), rows, i + 1, ids)
  {
    var next := ImportRow(artifacts, row, update, ids(i));
    ImportRowEffect(artifacts, row, update, ids(i));
    forall j | i + 1 <= j < |rows| ensures !HasArtifact(next, ids(j)) {
      assert ids(i) != ids(j);
    }
  }

  /** Without `update`, a completed or crashed run never modifies an artifact that was already there. */
  lemma {:induction false} NoUpdateKeepsExisting(artifacts: seq<Artifact>, rows: seq<seq<string>>, i: nat,
                                                parseFloat: string -> Option<real>, ids: nat -> Id, a: Artifact)
    requires a in artifacts
    ensures a in Run(artifacts, rows, i, parseFloat, Importer(false, ids)).artifacts
    decreases |rows| - i
  {
    if i >= |rows| {
    } else if i == 0 {
      NoUpdateKeepsExisting(artifacts, rows, 1, parseFloat, ids, a);
    } else {
      match ParseRow(rows[i], parseFloat)
      case None =>
      case Some(row) =>
        var next := ImportRow(artifacts, row, false, ids(i));
        assert Importer(false, ids)(artifacts, row, i) == next;
        assert a in next;
        NoUpdateKeepsExisting(next, rows, i + 1, parseFloat, ids, a);
    }
  }

  /** Without `update`, a completed or crashed run only appends: the catalog it starts from is a
      prefix of the one it leaves. */
  lemma {:induction false} NoUpdateOnlyAppends(artifacts: seq<Artifact>, rows: seq<seq<string>>, i: nat,
                                              parseFloat: string -> Option<real>, ids: nat -> Id)
    ensures artifacts <= Run(artifacts, rows, i, parseFloat, Importer(false, ids)).artifacts
    decreases |rows| - i
  {
    if i >= |rows| {
    } else if i == 0 {
      NoUpdateOnlyAppends(artifacts, rows, 1, parseFloat, ids);
    } else {
      match ParseRow(rows[i], parseFloat)
      case None =>
      case Some(row) =>
        var next := ImportRow(artifacts, row, false, ids(i));
        assert Importer(false, ids)(artifacts, row, i) == next;
        assert artifacts <= next;
        NoUpdateOnlyAppends(next, rows, i + 1, parseFloat, ids);
    }
  }

  /** A run that crashes stops at a data row the script cannot read, and every data row before
      it was read. */
  lemma CrashIsUnreadableRow(artifacts: seq<Artifact>, rows: seq<seq<string>>, i: nat,
                             parseFloat: string -> Option<real>, step: Step)
    requires Run(artifacts, rows, i, parseFloat, step).Crashed?
    ensures var n := Run(artifacts, rows, i, parseFloat, step).row;
            1 <= n < |rows| && i <= n && ParseRow(rows[n], parseFloat).None?
    ensures forall j :: 1 <= j < Run(artifacts, rows, i, parseFloat, step).row && i <= j ==>
              ParseRow(rows[j], parseFloat).Some?
  {
    CrashRow(artifacts, rows, i, parseFloat, step);
    forall j | 1 <= j < Run(artifacts, rows, i, parseFloat, step).row && i <= j
      ensures ParseRow(rows[j], parseFloat).Some?
    {
      ReadBeforeCrash(artifacts, rows, i, j, parseFloat, step);
    }
  }

  /** The row a run crashes at is an unreadable data row at or after the start. */
  lemma {:induction false} CrashRow(artifacts: seq<Artifact>, rows: seq<seq<string>>, i: nat,
                                    parseFloat: string -> Option<real>, step: Step)
    requires Run(artifacts, rows, i, parseFloat, step).Crashed?
    ensures var n := Run(artifacts, rows, i, parseFloat, step).row;
            1 <= n < |rows| && i <= n && ParseRow(rows[n], parseFloat).None?
    decreases |rows| - i
  {
    if i == 0 {
      CrashRow(artifacts, rows, 1, parseFloat, step);
    } else if i < |rows| {
      match ParseRow(rows[i], parseFloat)
      case None =>
      case Some(row) =>
        CrashRow(step(artifacts, row, i), rows, i + 1, parseFloat, step);
    }
  }

  /** A data row before the one a run crashes at was read. */
  lemma {:induction false} ReadBeforeCrash(artifacts: seq<Artifact>, rows: seq<seq<string>>, i: nat, j: nat,
                                           parseFloat: string -> Option<real>, step: Step)
    requires Run(artifacts, rows, i, parseFloat, step).Crashed?
    requires 1 <= j < Run(artifacts, rows, i, parseFloat, step).row && i <= j && j < |rows|
    ensures ParseRow(rows[j], parseFloat).Some?
    decreases |rows| - i
  {
    if i == 0 {
      ReadBeforeCrash(artifacts, rows, 1, j, parseFloat, step);
    } else if i < |rows| {
      match ParseRow(rows[i], parseFloat)
      case None =>
      case Some(row) =>
        if j > i {
          ReadBeforeCrash(step(artifacts, row, i), rows, i + 1, j, parseFloat, step);
        }
    }
  }

  /** The loop from row `i` reads nothing before row `i`. */
  lemma {:induction false} RunReadsSuffix(artifacts: seq<Artifact>, rows: seq<seq<string>>, rows': seq<seq<string>>,
                                          i: nat, parseFloat: string -> Option<real>, step: Step)
    requires 1 <= i && 1 <= |rows| == |rows'| && rows[1..] == rows'[1..]
    ensures Run(artifacts, rows, i, parseFloat, step) == Run(artifacts, rows', i, parseFloat, step)
    decreases |rows| - i
  {
    if i < |rows| {
      assert rows[i] == rows[1..][i - 1] == rows'[i];
      match ParseRow(rows[i], parseFloat)
      case None =>
      case Some(row) =>
        RunReadsSuffix(step(artifacts, row, i), rows, rows', i + 1, parseFloat, step);
    }
  }

  /** The first row is a header: whatever it holds, the run is the same. */
  lemma HeaderIgnored(artifacts: seq<Artifact>, header: seq<string>, header': seq<string>, data: seq<seq<string>>,
                      update: bool, parseFloat: string -> Option<real>, ids: nat -> Id)
    ensures PopulateArtifacts(artifacts, [header] + data, update, parseFloat, ids)
         == PopulateArtifacts(artifacts, [header'] + data, update, parseFloat, ids)
  {
    assert ([header] + data)[1..] == data == ([header'] + data)[1..];
    RunReadsSuffix(artifacts, [header] + data, [header'] + data, 1, parseFloat, Importer(update, ids));
  }
}

=== FILE: reports.dfy ===
/** The two read paths of `UserCollectedItems.get`: the flat listing (`_get_artifact_types`) and
    the per-type totals (`_count_by_artifact_type`), as pure functions over the collections. */
module Reports {
  import opened Wrappers
  import opened Bson
  import opened Seqs
  import opened Store
  import opened ErrorHandling
  import opened Ledger

  /** A ledger record unwound against one artifact its `$lookup` found. */
  datatype Row = Row(artifactId: Id, kind: string, value: int)

  /** One element of the flat listing: `{"_id": artifact_id, "value": value}`. */
  datatype Item = Item(artifactId: Id, value: int)

  /** One element of the typed listing: `{"type": type, "total": total}`. */
  datatype TypeTotal = TypeTotal(kind: string, total: int)

  /** The body of a GET: `{"_id": ..., "CollectedItems": [...]}`. An `Items` reply whose
      `listedId` is `None` carries a null `_id`. */
  datatype Reply =
    | Items(listedId: Option<Id>, items: seq<Item>)
    | Totals(owner: Id, totals: seq<TypeTotal>)

  function ItemArtifact(x: Item): Id { x.artifactId }
  function GroupKind(g: TypeTotal): string { g.kind }

  /** `$lookup` of one record: every artifact whose `_id` is its `artifact_id`. */
  function LookupArtifacts(artifacts: seq<Artifact>, artifactId: Id): seq<Artifact>
  {
    Filter(artifacts, (x: Artifact) => x.id == artifactId)
  }

  /** `$unwind`: one row per looked-up artifact; a record with none produces no row. */
  function Unwind(r: Record, found: seq<Artifact>): seq<Row>
  {
    if |found| == 0 then [] else [Row(r.artifactId, found[0].kind, r.value)] + Unwind(r, found[1..])
  }

  /** `$match {"user_id": id}`, `$lookup`, `$unwind`: the join both paths start from. */
  function JoinedRows(records: seq<Record>, artifacts: seq<Artifact>, userId: Id): seq<Row>
  {
    if |records| == 0 then []
    else
      (if records[0].userId == userId then Unwind(records[0], LookupArtifacts(artifacts, records[0].artifactId)) else [])
      + JoinedRows(records[1..], artifacts, userId)
  }

  /** `$addFields {"item": ...}` and `$push`: the listed items, in row order. */
  function ItemsOf(rows: seq<Row>): seq<Item>
  {
    if |rows| == 0 then [] else [Item(rows[0].artifactId, rows[0].value)] + ItemsOf(rows[1..])
  }

  /** The group for `kind`, if any: its running total. */
  function TotalFor(groups: seq<TypeTotal>, kind: string): Option<int>
  {
    if |groups| == 0 then None
    else if groups[0].kind == kind then Some(groups[0].total)
    else TotalFor(groups[1..], kind)
  }

  /** One step of `$group` by artifact type with `$sum` of `value`. */
  function AddToGroup(groups: seq<TypeTotal>, row: Row): seq<TypeTotal>
  {
    if |groups| == 0 then [TypeTotal(row.kind, row.value)]
    else if groups[0].kind == row.kind then [groups[0].(total := groups[0].total + row.value)] + groups[1..]
    else [groups[0]] + AddToGroup(groups[1..], row)
  }

  /** Folds the rows into the groups, one row at a time. */
  function GroupFrom(groups: seq<TypeTotal>, rows: seq<Row>): seq<TypeTotal>
    decreases |rows|
  {
    if |rows| == 0 then groups else GroupFrom(AddToGroup(groups, rows[0]), rows[1..])
  }

  /** `_count_by_artifact_type`'s grouping. MongoDB does not fix the order of groups; the model
      lists them in order of first appearance. */
  function GroupByKind(rows: seq<Row>): seq<TypeTotal>
  {
    GroupFrom([], rows)
  }

  /** `UserCollectedItems.get(id)` with the parsed `types` flag. The existence check runs first;
      when the pipeline yields no document the default `{"_id": id, "CollectedItems": []}` is sent.
      The flat pipeline groups on `$_id.user_id` of a record whose `_id` is an ObjectId, so the
      document it yields has a null `_id`; the typed pipeline groups on the user id. */
  function GetCollectedItems(db: Db, userId: Id, types: bool): (r: Result<Reply, Error>)
    ensures !HasUser(db.users, userId) ==> r == Failure(UserDoesNotExist(userId))
    ensures HasUser(db.users, userId) ==> r.Success?
    ensures r.Success? && !types ==> r.value.Items? && (r.value.listedId.None? <==> |r.value.items| > 0)
    ensures r.Success? && !types && r.value.listedId.Some? ==> r.value.listedId.value == userId
    ensures r.Success? && types ==> r.value.Totals? && r.value.owner == userId
  {
    var userOk :- EnsureExistentUser(db.users, userId);
    var rows := JoinedRows(db.usersArtifacts, db.artifacts, userId);
    if |rows| == 0 then
      if types then Success(Totals(userId, [])) else Success(Items(Some(userId), []))
    else if types then
      Success(Totals(userId, GroupByKind(rows)))
    else
      assert ItemsOf(rows)[0] == Item(rows[0].artifactId, rows[0].value);
      Success(Items(None, ItemsOf(rows)))
  }

  // ---------------------------------------------------------------------------------------------
  // Reference definitions stated over the collections, independent of the pipeline stages.

  /** The type of the artifact with `_id == artifactId`, when there is one. */
  function KindOf(artifacts: seq<Artifact>, artifactId: Id): Option<string>
  {
    match ArtifactIndex(artifacts, artifactId)
    case Some(i) => Some(artifacts[i].kind)
    case None => None
  }

  /** The user's records of existing artifacts, listed as items (an inner join), in the order the ledger holds them. */
  function OwnedItems(records: seq<Record>, artifacts: seq<Artifact>, userId: Id): seq<Item>
  {
    if |records| == 0 then []
    else
      (if records[0].userId == userId && HasArtifact(artifacts, records[0].artifactId)
       then [Item(records[0].artifactId, records[0].value)] else [])
      + OwnedItems(records[1..], artifacts, userId)
  }

  /** Sum of `value` over the user's records whose artifact has type `kind`. */
  function CollectedOfKind(records: seq<Record>, artifacts: seq<Artifact>, userId: Id, kind: string): int
  {
    if |records| == 0 then 0
    else
      (if records[0].userId == userId && KindOf(artifacts, records[0].artifactId) == Some(kind)
       then records[0].value else 0)
      + CollectedOfKind(records[1..], artifacts, userId, kind)
  }

  /** The user has at least one record whose artifact has type `kind`. */
  predicate CollectsKind(records: seq<Record>, artifacts: seq<Artifact>, userId: Id, kind: string)
  {
    exists i :: 0 <= i < |records| && records[i].userId == userId && KindOf(artifacts, records[i].artifactId) == Some(kind)
  }

  /** Sum of `value` over the rows of type `kind`. */
  function KindTotal(rows: seq<Row>, kind: string): int
  {
    if |rows| == 0 then 0 else (if rows[0].kind == kind then rows[0].value else 0) + KindTotal(rows[1..], kind)
  }

  predicate HasKind(rows: seq<Row>, kind: string)
  {
    exists i :: 0 <= i < |rows| && rows[i].kind == kind
  }

  /** `groups` is the grouping of `rows`: one group per type present, holding that type's sum. */
  ghost predicate Represents(groups: seq<TypeTotal>, rows: seq<Row>)
  {
    && UniqueBy(groups, GroupKind)
    && forall kind :: TotalFor(groups, kind) == if HasKind(rows, kind) then Some(KindTotal(rows, kind)) else None
  }

  // ---------------------------------------------------------------------------------------------
  // The join

  /** Under the `_id` index a lookup finds the artifact, or nothing. */
  lemma {:induction false} LookupIndexed(artifacts: seq<Artifact>, artifactId: Id)
    requires UniqueBy(artifacts, ArtifactId)
    ensures HasArtifact(artifacts, artifactId) ==>
              |LookupArtifacts(artifacts, artifactId)| == 1
              && LookupArtifacts(artifacts, artifactId)[0] == artifacts[ArtifactIndex(artifacts, artifactId).value]
    ensures !HasArtifact(artifacts, artifactId) ==> LookupArtifacts(artifacts, artifactId) == []
  {
    if |artifacts| > 0 {
      var rest := artifacts[1..];
      assert UniqueBy(rest, ArtifactId);
      LookupIndexed(rest, artifactId);
      if artifacts[0].id == artifactId {
        assert !HasArtifact(rest, artifactId) by {
          forall i | 0 <= i < |rest| ensures rest[i].id != artifactId {
            assert ArtifactId(artifacts[0]) != ArtifactId(artifacts[i + 1]);
          }
        }
        assert LookupArtifacts(artifacts, artifactId) == [artifacts[0]] + LookupArtifacts(rest, artifactId);
      } else {
        assert LookupArtifacts(artifacts, artifactId) == LookupArtifacts(rest, artifactId);
        ArtifactIndexTail(artifacts, artifactId);
      }
    }
  }

  /** Past a first artifact with another id, membership and position carry over to the tail. */
  lemma ArtifactIndexTail(artifacts: seq<Artifact>, artifactId: Id)
    requires |artifacts| > 0 && artifacts[0].id != artifactId
    ensures HasArtifact(artifacts, artifactId) <==> HasArtifact(artifacts[1..], artifactId)
    ensures HasArtifact(artifacts, artifactId) ==>
              artifacts[ArtifactIndex(artifacts, artifactId).value]
              == artifacts[1..][ArtifactIndex(artifacts[1..], artifactId).value]
  {
    var rest := artifacts[1..];
    if HasArtifact(artifacts, artifactId) {
      var i :| 0 <= i < |artifacts| && artifacts[i].id == artifactId;
      assert rest[i - 1].id == artifactId;
    }
    if HasArtifact(rest, artifactId) {
      var i :| 0 <= i < |rest| && rest[i].id == artifactId;
      assert artifacts[i + 1].id == artifactId;
    }
  }

  /** The flat pipeline lists the user's records of existing artifacts. */
  lemma {:induction false} JoinedItemsAreOwned(records: seq<Record>, artifacts: seq<Artifact>, userId: Id)
    requires UniqueBy(artifacts, ArtifactId)
    ensures ItemsOf(JoinedRows(records, artifacts, userId)) == OwnedItems(records, artifacts, userId)
  {
    if |records| > 0 {
      var r := records[0];
      var head := if r.userId == userId then Unwind(r, LookupArtifacts(artifacts, r.artifactId)) else [];
      var tail := JoinedRows(records[1..], artifacts, userId);
      JoinedItemsAreOwned(records[1..], artifacts, userId);
      LookupIndexed(artifacts, r.artifactId);
      ItemsOfAppend(head, tail);
      if r.userId == userId && HasArtifact(artifacts, r.artifactId) {
        var found := LookupArtifacts(artifacts, r.artifactId);
        assert head == [Row(r.artifactId, found[0].kind, r.value)] + Unwind(r, found[1..]);
        assert found[1..] == [];
      }
    }
  }

  lemma {:induction false} ItemsOfAppend(a: seq<Row>, b: seq<Row>)
    ensures ItemsOf(a + b) == ItemsOf(a) + ItemsOf(b)
  {
    if |a| > 0 {
      assert (a + b)[1..] == a[1..] + b;
      ItemsOfAppend(a[1..], b);
    } else {
      assert a + b == b;
    }
  }

  /** An item is owned exactly when a record of the user for an existing artifact carries it. */
  lemma {:induction false} OwnedItemsMembership(records: seq<Record>, artifacts: seq<Artifact>, userId: Id, x: Item)
    ensures x in OwnedItems(records, artifacts, userId) <==>
            HasArtifact(artifacts, x.artifactId)
            && exists i :: 0 <= i < |records| && Matches(records[i], userId, x.artifactId) && records[i].value == x.value
  {
    if |records| > 0 {
      OwnedItemsMembership(records[1..], artifacts, userId, x);
      if exists i :: 0 <= i < |records| && Matches(records[i], userId, x.artifactId) && records[i].value == x.value {
        var i :| 0 <= i < |records| && Matches(records[i], userId, x.artifactId) && records[i].value == x.value;
        if i > 0 {
          assert records[1..][i - 1] == records[i];
        }
      }
      if exists i :: 0 <= i < |records[1..]| && Matches(records[1..][i], userId, x.artifactId) && records[1..][i].value == x.value {
        var i :| 0 <= i < |records[1..]| && Matches(records[1..][i], userId, x.artifactId) && records[1..][i].value == x.value;
        assert records[i + 1] == records[1..][i];
      }
    }
  }

  /** Under the pair index the owned items name distinct artifacts. */
  lemma {:induction false} OwnedItemsDistinct(records: seq<Record>, artifacts: seq<Artifact>, userId: Id)
    requires UniqueBy(records, PairKey)
    ensures UniqueBy(OwnedItems(records, artifacts, userId), ItemArtifact)
  {
    if |records| > 0 {
      var r := records[0];
      var tail := OwnedItems(records[1..], artifacts, userId);
      assert UniqueBy(records[1..], PairKey);
      OwnedItemsDistinct(records[1..], artifacts, userId);
      if r.userId == userId && HasArtifact(artifacts, r.artifactId) {
        forall j | 0 <= j < |tail| ensures ItemArtifact(tail[j]) != r.artifactId {
          OwnedItemsMembership(records[1..], artifacts, userId, tail[j]);
        }
        PrependUnique(Item(r.artifactId, r.value), tail, ItemArtifact);
      }
    }
  }

  /** The flat listing is the ledger seen through the catalog: it lists `(a, v)` exactly when the
      ledger holds `v` for the user and `a` and artifact `a` still exists, each artifact once. */
  lemma FlatListingIsLedgerView(db: Db, userId: Id, artifactId: Id, v: int)
    requires Valid(db) && HasUser(db.users, userId)
    ensures GetCollectedItems(db, userId, false).Success?
    ensures Item(artifactId, v) in GetCollectedItems(db, userId, false).value.items <==>
            ValueOf(db.usersArtifacts, userId, artifactId) == Some(v) && HasArtifact(db.artifacts, artifactId)
    ensures UniqueBy(GetCollectedItems(db, userId, false).value.items, ItemArtifact)
  {
    JoinedItemsAreOwned(db.usersArtifacts, db.artifacts, userId);
    OwnedItemsMembership(db.usersArtifacts, db.artifacts, userId, Item(artifactId, v));
    OwnedItemsDistinct(db.usersArtifacts, db.artifacts, userId);
    ValueOfIndexed(db.usersArtifacts, userId, artifactId, v);
  }

  /** After setting `value` for a pair, the listing shows exactly `value` for that artifact, or
      nothing for it when `value` is 0. */
  lemma SetThenListShowsValue(db: Db, userId: Id, artifactId: Id, value: int, newId: Id, v: int)
    requires Valid(db)
    requires Put(db, userId, Some(artifactId), value, false, newId).Success?
    ensures GetCollectedItems(Put(db, userId, Some(artifactId), value, false, newId).value, userId, false).Success?
    ensures Item(artifactId, v) in
              GetCollectedItems(Put(db, userId, Some(artifactId), value, false, newId).value, userId, false).value.items
            <==> value != 0 && v == value
  {
    var db1 := Put(db, userId, Some(artifactId), value, false, newId).value;
    PutPreservesValid(db, userId, Some(artifactId), value, false, newId);
    PutEffect(db, userId, artifactId, value, false, newId, userId, artifactId);
    FlatListingIsLedgerView(db1, userId, artifactId, v);
  }

  // ---------------------------------------------------------------------------------------------
  // The grouping

  lemma {:induction false} TotalForNone(groups: seq<TypeTotal>, kind: string)
    ensures TotalFor(groups, kind).None? <==> KeyFree(groups, GroupKind, kind)
  {
    if |groups| > 0 {
      TotalForNone(groups[1..], kind);
      assert KeyFree(groups, GroupKind, kind) <==> groups[0].kind != kind && KeyFree(groups[1..], GroupKind, kind) by {
        if groups[0].kind != kind && KeyFree(groups[1..], GroupKind, kind) {
          forall i | 0 <= i < |groups| ensures GroupKind(groups[i]) != kind {
            if i > 0 { assert groups[i] == groups[1..][i - 1]; }
          }
        }
      }
    }
  }

  /** Under unique types, the group of each element's type is that element. */
  lemma {:induction false} TotalForIndexed(groups: seq<TypeTotal>, i: nat)
    requires UniqueBy(groups, GroupKind) && i < |groups|
    ensures TotalFor(groups, groups[i].kind) == Some(groups[i].total)
  {
    if i > 0 {
      assert GroupKind(groups[0]) != GroupKind(groups[i]);
      assert groups[1..][i - 1] == groups[i];
      TotalForIndexed(groups[1..], i - 1);
    }
  }

  /** Adding a row changes the sum of its own type only, starting a group when the type is new. */
  lemma {:induction false} TotalForAddToGroup(groups: seq<TypeTotal>, row: Row, kind: string)
    ensures TotalFor(AddToGroup(groups, row), kind)
         == if kind == row.kind then Some(TotalFor(groups, kind).GetOr(0) + row.value) else TotalFor(groups, kind)
  {
    if |groups| > 0 {
      var g := groups[0];
      if g.kind == row.kind {
        assert ([g.(total := g.total + row.value)] + groups[1..])[1..] == groups[1..];
      } else {
        assert ([g] + AddToGroup(groups[1..], row))[1..] == AddToGroup(groups[1..], row);
        TotalForAddToGroup(groups[1..], row, kind);
      }
    }
  }

  lemma {:induction false} AddToGroupUnique(groups: seq<TypeTotal>, row: Row)
    requires UniqueBy(groups, GroupKind)
    ensures UniqueBy(AddToGroup(groups, row), GroupKind)
  {
    if |groups| > 0 {
      var g := groups[0];
      var rest := groups[1..];
      if g.kind == row.kind {
        assert AddToGroup(groups, row) == groups[0 := g.(total := g.total + row.value)];
        UpdateUnique(groups, 0, g.(total := g.total + row.value), GroupKind);
      } else {
        assert UniqueBy(rest, GroupKind);
        AddToGroupUnique(rest, row);
        assert KeyFree(rest, GroupKind, g.kind) by {
          forall i | 0 <= i < |rest| ensures GroupKind(rest[i]) != g.kind {
            assert rest[i] == groups[i + 1];
          }
        }
        TotalForNone(rest, g.kind);
        TotalForAddToGroup(rest, row, g.kind);
        TotalForNone(AddToGroup(rest, row), g.kind);
        PrependUnique(g, AddToGroup(rest, row), GroupKind);
      }
    }
  }

  lemma {:induction false} KindTotalConcat(a: seq<Row>, b: seq<Row>, kind: string)
    ensures KindTotal(a + b, kind) == KindTotal(a, kind) + KindTotal(b, kind)
  {
    if |a| > 0 {
      assert (a + b)[1..] == a[1..] + b;
      KindTotalConcat(a[1..], b, kind);
    } else {
      assert a + b == b;
    }
  }

  lemma HasKindConcat(a: seq<Row>, b: seq<Row>, kind: string)
    ensures HasKind(a + b, kind) <==> HasKind(a, kind) || HasKind(b, kind)
  {
    if HasKind(a + b, kind) {
      var i :| 0 <= i < |a + b| && (a + b)[i].kind == kind;
      if i >= |a| { assert b[i - |a|] == (a + b)[i]; }
    }
    if HasKind(b, kind) {
      var i :| 0 <= i < |b| && b[i].kind == kind;
      assert (a + b)[i + |a|] == b[i];
    }
    if HasKind(a, kind) {
      var i :| 0 <= i < |a| && a[i].kind == kind;
      assert (a + b)[i] == a[i];
    }
  }

  /** Folding rows into a grouping of the rows seen so far yields a grouping of all of them. */
  lemma {:induction false} GroupFromRepresents(groups: seq<TypeTotal>, seen: seq<Row>, rows: seq<Row>)
    requires Represents(groups, seen)
    ensures Represents(GroupFrom(groups, rows), seen + rows)
    decreases |rows|
  {
    if |rows| == 0 {
      assert seen + rows == seen;
    } else {
      var row := rows[0];
      var next := AddToGroup(groups, row);
      var seen' := seen + [row];
      AddToGroupUnique(groups, row);
      forall kind
        ensures TotalFor(next, kind) == if HasKind(seen', kind) then Some(KindTotal(seen', kind)) else None
      {
        TotalForAddToGroup(groups, row, kind);
        KindTotalConcat(seen, [row], kind);
        HasKindConcat(seen, [row], kind);
        assert HasKind([row], kind) <==> row.kind == kind by {
          if row.kind == kind { assert [row][0].kind == kind; }
        }
        assert KindTotal([row], kind) == if row.kind == kind then row.value else 0 by {
          assert [row][1..] == [];
        }
        if !HasKind(seen, kind) {
          assert KindTotal(seen, kind) == 0 by { NoKindNoTotal(seen, kind); }
        }
      }
      assert seen' + rows[1..] == seen + rows;
      GroupFromRepresents(next, seen', rows[1..]);
    }
  }

  lemma {:induction false} NoKindNoTotal(rows: seq<Row>, kind: string)
    requires !HasKind(rows, kind)
    ensures KindTotal(rows, kind) == 0
  {
    if |rows| > 0 {
      assert !HasKind(rows[1..], kind);
      NoKindNoTotal(rows[1..], kind);
    }
  }

  /** The grouping lists each type of the rows once, with the sum of that type's values, and no
      other type. */
  lemma GroupByKindCorrect(rows: seq<Row>)
    ensures Represents(GroupByKind(rows), rows)
  {
    assert [] + rows == rows;
    GroupFromRepresents([], [], rows);
  }

  /** The type sums of the joined rows are the type sums of the user's ledger records. */
  lemma {:induction false} JoinedKindTotals(records: seq<Record>, artifacts: seq<Artifact>, userId: Id, kind: string)
    requires UniqueBy(artifacts, ArtifactId)
    ensures KindTotal(JoinedRows(records, artifacts, userId), kind) == CollectedOfKind(records, artifacts, userId, kind)
    ensures HasKind(JoinedRows(records, artifacts, userId), kind) <==> CollectsKind(records, artifacts, userId, kind)
  {
    if |records| > 0 {
      var r := records[0];
      var head := if r.userId == userId then Unwind(r, LookupArtifacts(artifacts, r.artifactId)) else [];
      var tail := JoinedRows(records[1..], artifacts, userId);
      JoinedKindTotals(records[1..], artifacts, userId, kind);
      LookupIndexed(artifacts, r.artifactId);
      KindTotalConcat(head, tail, kind);
      HasKindConcat(head, tail, kind);
      var own := r.userId == userId && KindOf(artifacts, r.artifactId) == Some(kind);
      if r.userId == userId && HasArtifact(artifacts, r.artifactId) {
        var found := LookupArtifacts(artifacts, r.artifactId);
        assert head == [Row(r.artifactId, found[0].kind, r.value)] + Unwind(r, found[1..]);
        assert found[1..] == [];
        assert head == [Row(r.artifactId, found[0].kind, r.value)];
        assert head[1..] == [];
        assert HasKind(head, kind) <==> own by {
          if own { assert head[0].kind == kind; }
        }
      } else {
        assert head == [];
      }
      assert CollectsKind(records, artifacts, userId, kind) <==> own || CollectsKind(records[1..], artifacts, userId, kind) by {
        if CollectsKind(records, artifacts, userId, kind) {
          var i :| 0 <= i < |records| && records[i].userId == userId && KindOf(artifacts, records[i].artifactId) == Some(kind);
          if i > 0 { assert records[1..][i - 1] == records[i]; }
        }
        if CollectsKind(records[1..], artifacts, userId, kind) {
          var i :| 0 <= i < |records[1..]| && records[1..][i].userId == userId
                   && KindOf(artifacts, records[1..][i].artifactId) == Some(kind);
          assert records[i + 1] == records[1..][i];
        }
      }
    }
  }

  /** The typed listing: one `{type, total}` per artifact type the user has at least one record
      of (for an existing artifact), each type once, total = the sum of those records' values;
      types the user has no record of are absent. */
  lemma TypeTotalsMatchLedger(db: Db, userId: Id)
    requires UniqueBy(db.artifacts, ArtifactId) && HasUser(db.users, userId)
    ensures GetCollectedItems(db, userId, true).Success?
    ensures UniqueBy(GetCollectedItems(db, userId, true).value.totals, GroupKind)
    ensures forall i :: 0 <= i < |GetCollectedItems(db, userId, true).value.totals| ==>
              var g := GetCollectedItems(db, userId, true).value.totals[i];
              CollectsKind(db.usersArtifacts, db.artifacts, userId, g.kind)
              && g.total == CollectedOfKind(db.usersArtifacts, db.artifacts, userId, g.kind)
    ensures forall kind :: CollectsKind(db.usersArtifacts, db.artifacts, userId, kind) ==>
              exists i :: 0 <= i < |GetCollectedItems(db, userId, true).value.totals| &&
                          GetCollectedItems(db, userId, true).value.totals[i].kind == kind
  {
    var rows := JoinedRows(db.usersArtifacts, db.artifacts, userId);
    var totals := GetCollectedItems(db, userId, true).value.totals;
    if |rows| == 0 {
      forall kind ensures !CollectsKind(db.usersArtifacts, db.artifacts, userId, kind) {
        JoinedKindTotals(db.usersArtifacts, db.artifacts, userId, kind);
      }
    } else {
      assert totals == GroupByKind(rows);
      GroupByKindCorrect(rows);
      forall i | 0 <= i < |totals|
        ensures CollectsKind(db.usersArtifacts, db.artifacts, userId, totals[i].kind)
        ensures totals[i].total == CollectedOfKind(db.usersArtifacts, db.artifacts, userId, totals[i].kind)
      {
        TotalForIndexed(totals, i);
        JoinedKindTotals(db.usersArtifacts, db.artifacts, userId, totals[i].kind);
      }
      forall kind | CollectsKind(db.usersArtifacts, db.artifacts, userId, kind)
        ensures exists i :: 0 <= i < |totals| && totals[i].kind == kind
      {
        JoinedKindTotals(db.usersArtifacts, db.artifacts, userId, kind);
        TotalForNone(totals, kind);
      }
    }
  }

  /** Two records of 3 and 2 for two "botella" artifacts total 5 under a single "botella" entry. */
  lemma BottleTotalsExample()
    ensures var db := Db([User("u", map[], map[], map[])],
                         [Artifact("A", "botella", Some("a"), Absent, 0.0, 0.0),
                          Artifact("B", "botella", Some("b"), Absent, 0.0, 0.0)],
                         [Record("r1", "u", "A", 3), Record("r2", "u", "B", 2)]);
            GetCollectedItems(db, "u", true) == Success(Totals("u", [TypeTotal("botella", 5)]))
  {
    var a := Artifact("A", "botella", Some("a"), Absent, 0.0, 0.0);
    var b := Artifact("B", "botella", Some("b"), Absent, 0.0, 0.0);
    var records := [Record("r1", "u", "A", 3), Record("r2", "u", "B", 2)];
    var db := Db([User("u", map[], map[], map[])], [a, b], records);
    assert HasUser(db.users, "u") by { assert db.users[0].id == "u"; }
    assert "A" != "B" by { assert "A"[0] != "B"[0]; }
    assert LookupArtifacts([a, b], "A") == [a] by {
      assert [a, b][1..] == [b];
      assert Filter([b], (x: Artifact) => x.id == "A") == [] by { assert [b][1..] == []; }
    }
    assert LookupArtifacts([a, b], "B") == [b] by {
      assert [a, b][1..] == [b];
      assert Filter([b], (x: Artifact) => x.id == "B") == [b] by { assert [b][1..] == []; }
    }
    var r1 := Row("A", "botella", 3);
    var r2 := Row("B", "botella", 2);
    assert Unwind(records[0], [a]) == [r1] by { assert [a][1..] == []; }
    assert Unwind(records[1], [b]) == [r2] by { assert [b][1..] == []; }
    assert JoinedRows(records, [a, b], "u") == [r1, r2] by {
      assert records[1..] == [records[1]];
      assert records[1..][1..] == [];
      assert JoinedRows(records[1..], [a, b], "u") == [r2];
    }
    assert GroupByKind([r1, r2]) == [TypeTotal("botella", 5)] by {
      assert AddToGroup([], r1) == [TypeTotal("botella", 3)];
      assert AddToGroup([TypeTotal("botella", 3)], r2) == [TypeTotal("botella", 5)];
      assert [r1, r2][1..] == [r2];
      assert [r2][1..] == [];
      assert GroupFrom([TypeTotal("botella", 3)], [r2]) == GroupFrom([TypeTotal("botella", 5)], []);
      assert GroupFrom([], [r1, r2]) == GroupFrom([TypeTotal("botella", 3)], [r2]);
    }
  }
}

=== FILE: seqs.dfy ===
/** Generic facts about sequences standing for MongoDB collections in natural order. */
module Seqs {
  import opened Wrappers

  /** No two elements of `s` share a key: what a unique index enforces. */
  predicate UniqueBy<T, K(==)>(s: seq<T>, key: T -> K) {
    forall i, j :: 0 <= i < j < |s| ==> key(s[i]) != key(s[j])
  }

  /** No element of `s` has key `k`. */
  predicate KeyFree<T, K(==)>(s: seq<T>, key: T -> K, k: K) {
    forall i :: 0 <= i < |s| ==> key(s[i]) != k
  }

  /** The elements of `s` that satisfy `p`, in their original order (a `find`/`remove` filter). */
  function Filter<T>(s: seq<T>, p: T -> bool): (r: seq<T>)
    ensures |r| <= |s|
    ensures forall i :: 0 <= i < |r| ==> r[i] in s && p(r[i])
    ensures forall i :: 0 <= i < |s| && p(s[i]) ==> s[i] in r
  {
    if |s| == 0 then []
    else (if p(s[0]) then [s[0]] else []) + Filter(s[1..], p)
  }

  /** The position of the first element satisfying `p` (what `find_one` and single-document updates hit). */
  function IndexOf<T>(s: seq<T>, p: T -> bool): (r: Option<nat>)
    ensures r.Some? ==> r.value < |s| && p(s[r.value])
    ensures r.Some? ==> forall j :: 0 <= j < r.value ==> !p(s[j])
    ensures r.None? ==> forall j :: 0 <= j < |s| ==> !p(s[j])
  {
    if |s| == 0 then None
    else if p(s[0]) then Some(0)
    else match IndexOf(s[1..], p)
      case None => None
      case Some(k) => Some(k + 1)
  }

  /** `delete_one`: drop the first element satisfying `p`, if any. */
  function DeleteOne<T>(s: seq<T>, p: T -> bool): seq<T>
  {
    match IndexOf(s, p)
    case None => s
    case Some(i) => s[..i] + s[i + 1..]
  }

  lemma {:induction false} FilterKeyFree<T, K>(s: seq<T>, p: T -> bool, key: T -> K, k: K)
    requires KeyFree(s, key, k)
    ensures KeyFree(Filter(s, p), key, k)
  {
    var r := Filter(s, p);
    forall i | 0 <= i < |r| ensures key(r[i]) != k {
      assert r[i] in s;
      var j :| 0 <= j < |s| && s[j] == r[i];
    }
  }

  lemma {:induction false} FilterUnique<T, K>(s: seq<T>, p: T -> bool, key: T -> K)
    requires UniqueBy(s, key)
    ensures UniqueBy(Filter(s, p), key)
  {
    if |s| > 0 {
      var t := Filter(s[1..], p);
      FilterUnique(s[1..], p, key);
      if p(s[0]) {
        assert KeyFree(s[1..], key, key(s[0]));
        FilterKeyFree(s[1..], p, key, key(s[0]));
        PrependUnique(s[0], t, key);
      }
    }
  }

  lemma PrependUnique<T, K>(x: T, s: seq<T>, key: T -> K)
    requires UniqueBy(s, key) && KeyFree(s, key, key(x))
    ensures UniqueBy([x] + s, key)
  {
    var r := [x] + s;
    forall i, j | 0 <= i < j < |r| ensures key(r[i]) != key(r[j]) {
      assert r[j] == s[j - 1];
      if i > 0 {
        assert r[i] == s[i - 1];
      }
    }
  }

  lemma AppendUnique<T, K>(s: seq<T>, x: T, key: T -> K)
    requires UniqueBy(s, key) && KeyFree(s, key, key(x))
    ensures UniqueBy(s + [x], key)
  {
    var r := s + [x];
    forall i, j | 0 <= i < j < |r| ensures key(r[i]) != key(r[j]) {
      assert r[i] == s[i];
    }
  }

  lemma UpdateUnique<T, K>(s: seq<T>, i: nat, y: T, key: T -> K)
    requires UniqueBy(s, key) && i < |s| && key(y) == key(s[i])
    ensures UniqueBy(s[i := y], key)
  {
  }

  lemma DeleteOneUnique<T, K>(s: seq<T>, p: T -> bool, key: T -> K)
    requires UniqueBy(s, key)
    ensures UniqueBy(DeleteOne(s, p), key)
  {
    match IndexOf(s, p)
    case None =>
    case Some(i) =>
      var r := s[..i] + s[i + 1..];
      forall a, b | 0 <= a < b < |r| ensures key(r[a]) != key(r[b]) {
        var a' := if a < i then a else a + 1;
        var b' := if b < i then b else b + 1;
        assert r[a] == s[a'] && r[b] == s[b'];
      }
  }

  lemma DeleteOneSubset<T>(s: seq<T>, p: T -> bool)
    ensures forall x :: x in DeleteOne(s, p) ==> x in s
    ensures forall x :: x in s && !p(x) ==> x in DeleteOne(s, p)
  {
    match IndexOf(s, p)
    case None =>
    case Some(i) =>
      assert s == s[..i] + [s[i]] + s[i + 1..];
  }

  lemma {:induction false} FilterIdempotent<T>(s: seq<T>, p: T -> bool)
    ensures Filter(Filter(s, p), p) == Filter(s, p)
  {
    if |s| > 0 {
      FilterIdempotent(s[1..], p);
      var t := Filter(s[1..], p);
      if p(s[0]) {
        var u := [s[0]] + t;
        assert u[0] == s[0] && u[1..] == t;
        assert Filter(s, p) == u;
        assert Filter(u, p) == [s[0]] + Filter(t, p);
        assert Filter(t, p) == t;
      } else {
        assert Filter(s, p) == t;
      }
    }
  }

  /** A filter that keeps every element is the identity. */
  lemma {:induction false} FilterKeepsAll<T>(s: seq<T>, p: T -> bool)
    requires forall i :: 0 <= i < |s| ==> p(s[i])
    ensures Filter(s, p) == s
  {
    if |s| > 0 {
      FilterKeepsAll(s[1..], p);
    }
  }
}

=== FILE: store.dfy ===
/** The three MongoDB collections the application uses and the unique indexes `init_db` declares. */
module Store {
  import opened Wrappers
  import opened Bson
  import opened Seqs

  /** A document of `users`. */
  datatype User = User(id: Id, personalInfo: Doc, awards: Doc, collectedItems: Doc)

  /** The `path` field of an artifact: absent (catalog import), null (POST without a path) or a text. */
  datatype PathField = Absent | NullPath | Given(path: string)

  /** A document of `artifacts`; `name` is absent for artifacts created through the API. */
  datatype Artifact = Artifact(id: Id, kind: string, name: Option<string>, path: PathField,
                               latitude: real, longitude: real)

  /** A document of `users_artifacts`: user `userId` has collected `value` of artifact `artifactId`. */
  datatype Record = Record(id: Id, userId: Id, artifactId: Id, value: int)

  /** The database, each collection in natural order. */
  datatype Db = Db(users: seq<User>, artifacts: seq<Artifact>, usersArtifacts: seq<Record>)

  function UserId(u: User): Id { u.id }
  function EmailKey(u: User): Value { Field(u.personalInfo, "email") }
  function NicknameKey(u: User): Value { Field(u.personalInfo, "nickname") }
  function ArtifactId(a: Artifact): Id { a.id }
  /** A missing name is indexed as null, so `None` is a key like any other. */
  function NameKey(a: Artifact): Option<string> { a.name }
  function RecordId(r: Record): Id { r.id }
  function PairKey(r: Record): (Id, Id) { (r.userId, r.artifactId) }

  /** The `_id` index plus unique `PersonalInfo.email` and `PersonalInfo.nickname`. */
  ghost predicate UsersIndexed(users: seq<User>) {
    && UniqueBy(users, UserId)
    && UniqueBy(users, EmailKey)
    && UniqueBy(users, NicknameKey)
  }

  /** The `_id` index plus unique `name`. */
  ghost predicate ArtifactsIndexed(artifacts: seq<Artifact>) {
    && UniqueBy(artifacts, ArtifactId)
    && UniqueBy(artifacts, NameKey)
  }

  /** The `_id` index plus the compound unique index on (`user_id`, `artifact_id`). */
  ghost predicate LedgerIndexed(records: seq<Record>) {
    && UniqueBy(records, RecordId)
    && UniqueBy(records, PairKey)
  }

  /** Every index of the database holds. */
  ghost predicate Valid(db: Db) {
    && UsersIndexed(db.users)
    && ArtifactsIndexed(db.artifacts)
    && LedgerIndexed(db.usersArtifacts)
  }

  predicate HasUser(users: seq<User>, id: Id) {
    exists i :: 0 <= i < |users| && users[i].id == id
  }

  predicate HasArtifact(artifacts: seq<Artifact>, id: Id) {
    exists i :: 0 <= i < |artifacts| && artifacts[i].id == id
  }

  predicate HasRecordId(records: seq<Record>, id: Id) {
    exists i :: 0 <= i < |records| && records[i].id == id
  }

  /** Position of the user with `_id == id`, as `find_one` or a single-document update sees it. */
  function UserIndex(users: seq<User>, id: Id): (r: Option<nat>)
    ensures r.Some? <==> HasUser(users, id)
    ensures r.Some? ==> r.value < |users| && users[r.value].id == id
  {
    IndexOf(users, (u: User) => u.id == id)
  }

  /** Position of the artifact with `_id == id`. */
  function ArtifactIndex(artifacts: seq<Artifact>, id: Id): (r: Option<nat>)
    ensures r.Some? <==> HasArtifact(artifacts, id)
    ensures r.Some? ==> r.value < |artifacts| && artifacts[r.value].id == id
  {
    IndexOf(artifacts, (a: Artifact) => a.id == id)
  }
}

=== FILE: users.dfy ===
/** The user resources of `ar_tunnel/models/user.py`: creation, personal-info and awards updates,
    deletion and login. */
module Users {
  import opened Wrappers
  import opened Bson
  import opened Seqs
  import opened Misc
  import opened Store
  import opened ErrorHandling
  import opened Reports

  const DEFAULT_PERSONAL_INFO_MAP: InfoMap := map[
    "active" := Descriptor(BoolType, Bool(true), None),
    "createdAt" := Descriptor(DateTimeType, Null, None),
    "email" := Descriptor(StrType, Null, Some(EmailValidator)),
    "gender" := Descriptor(StrType, Null, None),
    "isTutorialDone" := Descriptor(StrType, Null, None),
    "level" := Descriptor(IntType, Int(1), None),
    "nickname" := Descriptor(StrType, Null, None)
  ]

  const DEFAULT_AWARDS_MAP: InfoMap := map[
    "digQuantity" := Descriptor(IntType, Int(0), None),
    "gatherQuantity" := Descriptor(IntType, Int(0), None),
    "searchQuantity" := Descriptor(IntType, Int(0), None)
  ]

  const DEFAULT_PERSONAL_INFO: Doc := InfoMapToInfo(DEFAULT_PERSONAL_INFO_MAP)
  const DEFAULT_AWARDS: Doc := InfoMapToInfo(DEFAULT_AWARDS_MAP)

  /** The defaults documents: each field holds its descriptor's default value. */
  lemma DefaultDocuments()
    ensures DEFAULT_PERSONAL_INFO == map[
              "active" := Bool(true), "createdAt" := Null, "email" := Null, "gender" := Null,
              "isTutorialDone" := Null, "level" := Int(1), "nickname" := Null]
    ensures DEFAULT_AWARDS == map["digQuantity" := Int(0), "gatherQuantity" := Int(0), "searchQuantity" := Int(0)]
  {
    var info := DEFAULT_PERSONAL_INFO;
    assert info.Keys == DEFAULT_PERSONAL_INFO_MAP.Keys;
    assert info["active"] == Bool(true) && info["level"] == Int(1);
    assert info["createdAt"] == Null && info["email"] == Null && info["gender"] == Null;
    assert info["isTutorialDone"] == Null && info["nickname"] == Null;
    var awards := DEFAULT_AWARDS;
    assert awards.Keys == DEFAULT_AWARDS_MAP.Keys;
    assert awards["digQuantity"] == Int(0) && awards["gatherQuantity"] == Int(0) && awards["searchQuantity"] == Int(0);
  }

  /** The arguments the personal-info PUT declares: every personal-info field but `createdAt`. */
  const PERSONAL_INFO_PUT_ARGS: set<string> := set k | k in DEFAULT_PERSONAL_INFO_MAP && k != "createdAt"

  // ---------------------------------------------------------------------------------------------
  // Users.post

  /** The document `Users.post` inserts: the personal-info defaults overridden by the supplied
      fields and the digest of the password (`hash` stands for the SHA-256 hex digest), zeroed
      awards and no collected items. */
  function NewUser(id: Id, nickname: string, email: string, password: string, gender: string,
                   hash: string -> string, now: int): (u: User)
    ensures u.id == id
    ensures u.personalInfo.Keys == DEFAULT_PERSONAL_INFO_MAP.Keys + {"password"}
    ensures u.personalInfo["active"] == Bool(true) && u.personalInfo["level"] == Int(1)
    ensures u.personalInfo["isTutorialDone"] == Null && u.personalInfo["createdAt"] == Date(now)
    ensures u.personalInfo["email"] == Str(email) && u.personalInfo["nickname"] == Str(nickname)
    ensures u.personalInfo["gender"] == Str(gender) && u.personalInfo["password"] == Str(hash(password))
    ensures u.awards == map["digQuantity" := Int(0), "gatherQuantity" := Int(0), "searchQuantity" := Int(0)]
    ensures u.collectedItems == map[]
  {
    var defaults := DEFAULT_PERSONAL_INFO;
    assert defaults.Keys == DEFAULT_PERSONAL_INFO_MAP.Keys;
    assert "createdAt" in defaults && "email" in defaults && "gender" in defaults && "nickname" in defaults;
    assert defaults["active"] == Bool(true) && defaults["level"] == Int(1) && defaults["isTutorialDone"] == Null;
    var info := DEFAULT_PERSONAL_INFO["createdAt" := Date(now)]["email" := Str(email)]["gender" := Str(gender)]
                ["nickname" := Str(nickname)]["password" := Str(hash(password))];
    User(id, info, DEFAULT_AWARDS, map[])
  }

  /** `Users.post`: the e-mail, password and gender checks in that order, then the insert, which
      the `_id`, e-mail and nickname indexes may refuse. Returns the new id. */
  function PostUser(db: Db, nickname: string, email: string, password: string, gender: string,
                    validateEmail: string -> bool, hash: string -> string, now: int, newId: Id)
    : (r: Result<(Db, Id), Error>)
    ensures !validateEmail(email) ==> r == Failure(InvalidEmail)
    ensures validateEmail(email) && gender != "male" && gender != "female" ==> r == Failure(InvalidGender)
    ensures validateEmail(email) && (gender == "male" || gender == "female") ==>
              (r.Failure? <==>
                 HasUser(db.users, newId)
                 || !KeyFree(db.users, EmailKey, Str(email))
                 || !KeyFree(db.users, NicknameKey, Str(nickname)))
    ensures r.Failure? && validateEmail(email) && (gender == "male" || gender == "female") ==> r.error == DuplicateKey
    ensures r.Success? ==>
              && r.value.1 == newId
              && r.value.0.artifacts == db.artifacts && r.value.0.usersArtifacts == db.usersArtifacts
              && r.value.0.users == db.users + [NewUser(newId, nickname, email, password, gender, hash, now)]
  {
    var emailOk :- EnsureValidEmail(email, validateEmail);
    if EnsureValidPassword(password).Failure? then Failure(InvalidPassword) else
    var genderOk :- EnsureValidGender(gender);
    var user := NewUser(newId, nickname, email, password, gender, hash, now);
    if HasUser(db.users, newId)
       || !KeyFree(db.users, EmailKey, Str(email))
       || !KeyFree(db.users, NicknameKey, Str(nickname))
    then Failure(DuplicateKey)
    else Success((db.(users := db.users + [user]), newId))
  }

  /** A created user keeps every unique index satisfied. */
  lemma PostUserPreservesValid(db: Db, nickname: string, email: string, password: string, gender: string,
                               validateEmail: string -> bool, hash: string -> string, now: int, newId: Id)
    requires Valid(db)
    requires PostUser(db, nickname, email, password, gender, validateEmail, hash, now, newId).Success?
    ensures Valid(PostUser(db, nickname, email, password, gender, validateEmail, hash, now, newId).value.0)
  {
    var user := NewUser(newId, nickname, email, password, gender, hash, now);
    assert EmailKey(user) == Str(email) && NicknameKey(user) == Str(nickname);
    AppendUnique(db.users, user, UserId);
    AppendUnique(db.users, user, EmailKey);
    AppendUnique(db.users, user, NicknameKey);
  }

  // ---------------------------------------------------------------------------------------------
  // Updates of one user

  /** `UserPersonalInfo.put`: a supplied argument is kept only when its name is an award field,
      and no personal-info argument is, so the `$set` is empty and the user is left as it was. */
  function PutPersonalInfo(db: Db, id: Id, supplied: map<string, Value>): (r: Db)
    ensures r == db
  {
    var data := map k | k in supplied && k in PERSONAL_INFO_PUT_ARGS && k in DEFAULT_AWARDS_MAP :: supplied[k];
    assert data == map[] by {
      forall k | k in PERSONAL_INFO_PUT_ARGS ensures k !in DEFAULT_AWARDS_MAP {
        assert k in DEFAULT_PERSONAL_INFO_MAP;
      }
    }
    // `update({"_id": id}, {"$set": data})` without upsert: the first user with that id, if any
    match UserIndex(db.users, id)
    case None => db
    case Some(i) =>
      assert db.users[i].personalInfo + data == db.users[i].personalInfo;
      assert db.users[i := db.users[i]] == db.users;
      db.(users := db.users[i := db.users[i].(personalInfo := db.users[i].personalInfo + data)])
  }

  /** The award arguments among the supplied ones. */
  function AwardsData(supplied: map<string, int>): map<string, int>
  {
    map k | k in supplied && k in DEFAULT_AWARDS_MAP :: supplied[k]
  }

  /** A value `$inc` can add to: a number, or a missing field. */
  predicate Incrementable(v: Option<Value>) {
    v.None? || v.value.Int? || v.value.Float?
  }

  /** `$inc` of one field: numbers add up, a missing field starts at the increment. */
  function Increment(v: Option<Value>, step: int): Value
    requires Incrementable(v)
  {
    match v
    case None => Int(step)
    case Some(Int(n)) => Int(n + step)
    case Some(Float(x)) => Float(x + step as real)
  }

  function Get(d: Doc, k: string): Option<Value> {
    if k in d then Some(d[k]) else None
  }

  /** The awards after `{op: data}`: `$set` stores each supplied number, `$inc` adds it. The whole
      `$inc` is refused when one of its fields holds something other than a number. */
  function ApplyAwards(awards: Doc, data: map<string, int>, increase: bool): (r: Result<Doc, Error>)
    ensures r.Failure? <==> increase && exists k :: k in data && !Incrementable(Get(awards, k))
    ensures r.Failure? ==> r.error == NonNumericIncrement
    ensures r.Success? ==> r.value.Keys == awards.Keys + data.Keys
    ensures r.Success? ==> forall k :: k in awards && k !in data ==> r.value[k] == awards[k]
    ensures r.Success? && !increase ==> forall k :: k in data ==> r.value[k] == Int(data[k])
    ensures r.Success? && increase ==> forall k :: k in data ==>
              && Incrementable(Get(awards, k))
              && r.value[k] == Increment(Get(awards, k), data[k])
  {
    if !increase then
      Success(map k | k in awards.Keys + data.Keys :: if k in data then Int(data[k]) else awards[k])
    else if exists k | k in data :: !Incrementable(Get(awards, k)) then
      Failure(NonNumericIncrement)
    else
      Success(map k | k in awards.Keys + data.Keys :: if k in data then Increment(Get(awards, k), data[k]) else awards[k])
  }

  /** `UserAwards.put`: updates only the award fields supplied; a missing user is not an error,
      the update simply matches nothing. */
  function PutAwards(db: Db, id: Id, supplied: map<string, int>, increase: bool): (r: Result<Db, Error>)
    ensures !HasUser(db.users, id) ==> r == Success(db)
    ensures r.Success? ==> r.value.artifacts == db.artifacts && r.value.usersArtifacts == db.usersArtifacts
    ensures r.Success? ==> |r.value.users| == |db.users|
    ensures r.Success? ==> forall j :: 0 <= j < |db.users| && db.users[j].id != id ==> r.value.users[j] == db.users[j]
    ensures HasUser(db.users, id) ==>
              var i := UserIndex(db.users, id).value;
              var data := AwardsData(supplied);
              && (r.Failure? <==> increase && exists k :: k in data && !Incrementable(Get(db.users[i].awards, k)))
              && (r.Success? ==> forall j :: 0 <= j < |db.users| && j != i ==> r.value.users[j] == db.users[j])
              && (r.Success? ==> ApplyAwards(db.users[i].awards, data, increase).Success?
                                 && r.value.users[i] == db.users[i].(awards := ApplyAwards(db.users[i].awards, data, increase).value))
  {
    var data := AwardsData(supplied);
    match UserIndex(db.users, id)
    case None => Success(db)
    case Some(i) =>
      var awards :- ApplyAwards(db.users[i].awards, data, increase);
      Success(db.(users := db.users[i := db.users[i].(awards := awards)]))
  }

  /** An awards update keeps every unique index satisfied. */
  lemma PutAwardsPreservesValid(db: Db, id: Id, supplied: map<string, int>, increase: bool)
    requires Valid(db)
    requires PutAwards(db, id, supplied, increase).Success?
    ensures Valid(PutAwards(db, id, supplied, increase).value)
  {
    match UserIndex(db.users, id)
    case None =>
    case Some(i) =>
      var awards := ApplyAwards(db.users[i].awards, AwardsData(supplied), increase).value;
      var u := db.users[i].(awards := awards);
      UpdateUnique(db.users, i, u, UserId);
      UpdateUnique(db.users, i, u, EmailKey);
      UpdateUnique(db.users, i, u, NicknameKey);
  }

  // ---------------------------------------------------------------------------------------------
  // User.delete

  /** `User.delete`: `delete_one` on the user, then a ledger `remove` filtered on the record's own
      `_id` (not on `user_id`), so only a record whose ObjectId equals the user's would go. */
  function DeleteUser(db: Db, id: Id): (r: Db)
    ensures r.artifacts == db.artifacts
    ensures forall rec :: rec in r.usersArtifacts <==> rec in db.usersArtifacts && rec.id != id
    ensures forall u :: u in r.users ==> u in db.users
    ensures forall u :: u in db.users && u.id != id ==> u in r.users
  {
    DeleteOneSubset(db.users, (u: User) => u.id == id);
    Db(DeleteOne(db.users, (u: User) => u.id == id),
       db.artifacts,
       Filter(db.usersArtifacts, (rec: Record) => rec.id != id))
  }

  /** Under the `_id` index the deleted user is gone and the indexes still hold. */
  lemma DeleteUserRemovesUser(db: Db, id: Id)
    requires Valid(db)
    ensures !HasUser(DeleteUser(db, id).users, id)
    ensures Valid(DeleteUser(db, id))
  {
    var users := db.users;
    var p := (u: User) => u.id == id;
    DeleteOneUnique(users, p, UserId);
    DeleteOneUnique(users, p, EmailKey);
    DeleteOneUnique(users, p, NicknameKey);
    FilterUnique(db.usersArtifacts, (rec: Record) => rec.id != id, RecordId);
    FilterUnique(db.usersArtifacts, (rec: Record) => rec.id != id, PairKey);
    match IndexOf(users, p)
    case None =>
    case Some(i) =>
      var r := users[..i] + users[i + 1..];
      forall j | 0 <= j < |r| ensures r[j].id != id {
        var j' := if j < i then j else j + 1;
        assert r[j] == users[j'];
        assert UserId(users[j']) != UserId(users[i]);
      }
  }

  /** Once a user is deleted, reading its collected items reports the user as unknown. */
  lemma DeleteUserThenGetFails(db: Db, id: Id, types: bool)
    requires Valid(db)
    ensures GetCollectedItems(DeleteUser(db, id), id, types) == Failure(UserDoesNotExist(id))
  {
    DeleteUserRemovesUser(db, id);
  }

  /** When no ledger record's ObjectId equals the user's (ObjectIds are not shared across
      collections), deleting the user leaves the whole ledger, that user's entries included. */
  lemma DeleteUserKeepsLedger(db: Db, id: Id)
    requires !HasRecordId(db.usersArtifacts, id)
    ensures DeleteUser(db, id).usersArtifacts == db.usersArtifacts
  {
    FilterKeepsAll(db.usersArtifacts, (rec: Record) => rec.id != id);
  }

  // ---------------------------------------------------------------------------------------------
  // UserLogin.post

  datatype LoginReply = LoggedIn(id: Id) | Invalid

  /** The user's nickname and stored digest match the login. */
  predicate ByNickname(u: User, login: string, digest: string) {
    Field(u.personalInfo, "nickname") == Str(login) && Field(u.personalInfo, "password") == Str(digest)
  }

  /** The user's e-mail and stored digest match the login. */
  predicate ByEmail(u: User, login: string, digest: string) {
    Field(u.personalInfo, "email") == Str(login) && Field(u.personalInfo, "password") == Str(digest)
  }

  /** `UserLogin.post`: the login text is tried as a nickname first, then as an e-mail, each
      together with the digest of the password; with no match the reply is "Invalid". */
  function Login(users: seq<User>, login: string, password: string, hash: string -> string): (r: LoginReply)
    ensures r.Invalid? <==>
            forall i :: 0 <= i < |users| ==> !ByNickname(users[i], login, hash(password)) && !ByEmail(users[i], login, hash(password))
    ensures r.LoggedIn? ==>
              exists i :: 0 <= i < |users| && users[i].id == r.id
                          && (ByNickname(users[i], login, hash(password)) || ByEmail(users[i], login, hash(password)))
    ensures forall i :: 0 <= i < |users| && ByNickname(users[i], login, hash(password))
                        && (forall j :: 0 <= j < i ==> !ByNickname(users[j], login, hash(password)))
                        ==> r == LoggedIn(users[i].id)
  {
    var digest := hash(password);
    match IndexOf(users, (u: User) => ByNickname(u, login, digest))
    case Some(i) => LoggedIn(users[i].id)
    case None =>
      match IndexOf(users, (u: User) => ByEmail(u, login, digest))
      case Some(i) => LoggedIn(users[i].id)
      case None => Invalid
  }

  /** Under the nickname index, the user whose nickname and password match is the one logged in,
      even when the login text is also another user's e-mail. */
  lemma LoginPrefersNickname(users: seq<User>, login: string, password: string, hash: string -> string, i: nat)
    requires UsersIndexed(users)
    requires i < |users| && ByNickname(users[i], login, hash(password))
    ensures Login(users, login, password, hash) == LoggedIn(users[i].id)
  {
    forall j | 0 <= j < i ensures !ByNickname(users[j], login, hash(password)) {
      assert NicknameKey(users[j]) != NicknameKey(users[i]);
    }
  }
  /** A user created through `Users.post` can log in at once with the nickname and password they
      registered with, and the login answers the new user's id. */
  lemma PostThenLogin(db: Db, nickname: string, email: string, password: string, gender: string,
                      validateEmail: string -> bool, hash: string -> string, now: int, newId: Id)
    requires Valid(db)
    requires PostUser(db, nickname, email, password, gender, validateEmail, hash, now, newId).Success?
    ensures Login(PostUser(db, nickname, email, password, gender, validateEmail, hash, now, newId).value.0.users,
                  nickname, password, hash) == LoggedIn(newId)
  {
    var users := PostUser(db, nickname, email, password, gender, validateEmail, hash, now, newId).value.0.users;
    var user := NewUser(newId, nickname, email, password, gender, hash, now);
    PostUserPreservesValid(db, nickname, email, password, gender, validateEmail, hash, now, newId);
    assert users[|db.users|] == user;
    assert ByNickname(user, nickname, hash(password));
    LoginPrefersNickname(users, nickname, password, hash, |db.users|);
  }

}

=== FILE: wrappers.dfy ===
/** Failure-compatible wrappers used by every operation of the model. */
module Wrappers {

  datatype Option<+T> = None | Some(value: T) {
    function GetOr(default: T): T {
      match this
      case Some(v) => v
      case None => default
    }
  }

  /** The outcome of a request: a value, or the exception the handler raised. */
  datatype Result<+R, +E> = Success(value: R) | Failure(error: E) {
    predicate IsFailure() {
      Failure?
    }

    function PropagateFailure<U>(): Result<U, E>
      requires Failure?
    {
      Failure(error)
    }

    function Extract(): R
      requires Success?
    {
      value
    }
  }
}
